=== FILE: README.md ===
# Point of sale with SRI electronic invoicing — a Dafny model

This project models a small retail point of sale. It has two React screen
revisions over one Google-Sheets inventory, and a Python backend. The
backend updates stock, records sales, reports profit, and issues invoices
through Ecuador's SRI (Servicio de Rentas Internas) web services. The model
covers these parts:

- **Cart** (`cart.dfy`): the cart store of both screens. It covers adding a
  product, changing a line's quantity, removing a line, the total and the
  change, the low-stock list and the search filter. It also covers the
  cached inventory after a sale is accepted.
- **Checkout** (`checkout.dfy`): the pay button's controller in both
  revisions. This is the single-flight guard of the later revision, the
  request built from the cart, and how the gateway's answer is applied.
- **AccessKey** (`access_key.dfy`): the 49-digit access key. It covers the
  field layout (date, document type, RUC, environment, series, sequence
  number, random code, emission type) and the modulo-11 check digit.
- **SriClient** (`sri_client.dfy`): how a reception answer is classified,
  and the bounded authorization polling loop.
- **Invoice** (`invoice.dfy`): the invoicing coordinator. It covers the
  persistent sequence counter, the client and sale data at 15% VAT, and the
  three outcomes of one emission (issued, refused, critical). It also
  covers a session of emissions against one counter.
- **Stock** (`stock.dfy`): the sheet rules of the backend. These are one
  stock update, a whole sale over its items with no rollback, and the
  sales-history query.
- **Profit** (`profit.dfy`): the profit report. It covers per-sale revenue,
  cost and profit with decimal rounding, grouping by product and by
  seller, sorting, the top ten, and the headline figures.
- **Text**, **Seqs**, **Wrappers**: digit strings, Python's `str` and
  `zfill`, JavaScript's `trim`, `toLowerCase` and `includes`, string
  ordering, a filter, and `Option`/`Result`.

Money is modelled exactly, on these scales:

- the screens work in cents and whole units;
- the backend sheet works in thousandths (the sheet keeps three decimals);
- the invoice amounts are exact reals;
- the profit report computes in thousandths and displays in hundredths.

The clock, the random key code, the SOAP answers, the signer's failure and
file writes are all parameters.

Where the code and its documentation disagree, the model follows the code:

- **Empty cart.** An empty cart does not produce an invoice with zero
  totals. The VAT code is bound only inside the item loop, so the
  coordinator raises and reports a critical error. The sequence number is
  spent anyway.
- **Check digit.** The weights run 7, 6, …, 2 from the **left**. The SRI
  rule weights from the right. The two agree on the 48-digit key body
  (`AccessKey.LeftEqualsRight`), and differ on other lengths.
- **No single-flight guard in the earlier screen.** The earlier revision
  has no in-flight guard, so two clicks send two sales.
- **History limit.** A negative history limit keeps all but the first
  records, because Python evaluates `records[-limit:]` that way.

## Model

| member | source | states |
|---|---|---|
| AccessKey.LeftWeight | backend/sri_xml_generator.py:17-24 | the multiplier always lies between 2 and 7 |
| AccessKey.Mod11Digit | backend/sri_xml_generator.py:26-34 | the digit is at most 9: 0 when the sum is a multiple of 11, 1 when the remainder is 1, otherwise the digit that completes the sum to a multiple of 11 |
| AccessKey.CheckDigit | backend/sri_xml_generator.py:12-34 | a check digit exists exactly when the input is all digits, and it is at most 9 |
| AccessKey.ComputeCheckDigit | backend/sri_xml_generator.py:12-34 | the running-multiplier loop computes the same digit as the weighted-sum definition |
| AccessKey.LeftEqualsRight | backend/sri_xml_generator.py:17-24 | when the length plus offset is a multiple of 6, left-to-right weights 7..2 give the same sum as the SRI right-to-left weights 2..7, so the 48-digit body is checked as the SRI expects |
| AccessKey.LeftDiffersFromRightOnShortInput | backend/sri_xml_generator.py:17-24 | on "01" the two weightings give different sums (6 against 2), so the agreement depends on the length |
| AccessKey.DateDigits | backend/sri_xml_generator.py:45 | DDMMYYYY of a valid date is eight digits |
| AccessKey.GenerateKey | backend/sri_xml_generator.py:37-86 | a key exists exactly when the body is all digits; it is then the body followed by the one character of its check digit |
| AccessKey.NineDigitSequence | backend/sri_xml_generator.py:60 | a sequence number below 10^9 zero-fills to exactly nine digits |
| AccessKey.EightDigitCode | backend/sri_xml_generator.py:63 | a code drawn from 10000000..99999999 prints as eight digits |
| AccessKey.BodyLayout | backend/sri_xml_generator.py:69-78 | with well-formed inputs the body is 48 digits, and every field sits at its fixed offset (date 0-8, type 8-10, RUC 10-23, environment 23, series 24-30, sequence 30-39, code 39-47, emission 47) |
| AccessKey.GeneratedKeyLayout | backend/sri_xml_generator.py:37-86 | with well-formed inputs the key exists, it passes the 49-digit validity check (48 digits plus the check digit of the first 48), and it keeps every field at its offset |
| AccessKey.LongSequenceOverflowsKey | backend/sri_xml_generator.py:60-84 | a sequence number of 10 digits or more is not truncated by zfill, so the key comes out longer than 49 characters |
| Text.NatToStringRoundTrip | backend/sri_xml_generator.py:60 | reading back the decimal text of n gives n |
| Text.ZFill | backend/sri_xml_generator.py:60 | Python's zfill: the length is the larger of the length and the width, zeros go after any sign, and a text already long enough is unchanged |
| Text.ZFillKeepsValue | backend/sri_xml_generator.py:60 | zero-filling a natural number's text keeps it all digits and keeps its value |
| Text.TrimEmptyIffAllSpace | frontend/src/App.jsx:538-543 | a term trims to "" exactly when every character is white space |
| Text.Includes | frontend/src/App.jsx:538-543 | `includes` holds exactly when the needle occurs at some position |
| Cart.FindLine | frontend/src/App.jsx:314 | the first cart line of the product, or no line with that id |
| Cart.RemoveFromCart | frontend/src/App.jsx:361-363 | the result is the order-preserving filter of the cart by "not this product": every line of the product goes, every other line stays, in order and as often as it occurs; nothing changes when the product is absent; distinct lines stay distinct |
| Cart.AddToCart | frontend/src/App.jsx:313-334 | the add is accepted exactly when the product has stock and its line (if any) is below that stock; a refusal leaves the cart unchanged; a new product is appended at quantity 1; an existing line grows by one and the others stay |
| Cart.UpdateCartQuantity | frontend/src/App.jsx:337-358 | a product with no line faults; a quantity at or below zero removes the line; a change is accepted exactly when the product is in the inventory and the new quantity is within its cached stock, and then only that line changes |
| Cart.RemoveThenAddStartsAtOne | my-pos/src/App.jsx:54-104 | after removing a product, adding it again gives a fresh last line with quantity 1 |
| Cart.AddKeepsWithinStock | frontend/src/App.jsx:313-334 | adding an inventory product keeps every line between 1 and its product's cached stock |
| Cart.UpdateKeepsWithinStock | frontend/src/App.jsx:337-358 | changing a quantity keeps every line within stock |
| Cart.RemoveKeepsWithinStock | frontend/src/App.jsx:361-363 | removing keeps every line within stock |
| Cart.RunKeepsWithinStock | frontend/src/App.jsx:313-363 | any sequence of adds, changes and removals keeps the cart within stock |
| Cart.TotalAppend | frontend/src/App.jsx:527-529 | the total of two carts joined is the sum of their totals |
| Cart.AddRaisesTotalByOnePrice | frontend/src/App.jsx:313-334 | an accepted add raises the total by exactly one unit price |
| Cart.Change | frontend/src/App.jsx:531-535 | change plus total equals the amount received, and a blank amount gives minus the total |
| Cart.ShowChange | frontend/src/App.jsx:924-944 | "Vuelto" shows exactly when an amount is given, the total is positive and the amount covers it; "Falta" shows exactly when it falls short; the shortfall plus the amount is the total |
| Cart.ShowChangeIsDistance | frontend/src/App.jsx:924-944 | with a positive total and a parsed amount the panel always shows the distance between amount and total, as "Vuelto" exactly when the amount covers the total |
| Cart.LowStock | frontend/src/App.jsx:160-163 | the alerts are the order-preserving filter of the inventory by "at or below the minimum": no longer than the inventory, no product more often than it occurs there, and every such product listed |
| Cart.LowStockAppend | frontend/src/App.jsx:160-163 | the low-stock list of two inventories joined is the two lists joined, so the list follows the inventory's order |
| Cart.LowStockOne | frontend/src/App.jsx:160-163 | a single product is listed exactly when its stock is at or below its minimum |
| Cart.Search | frontend/src/App.jsx:538-543 | the later screen shows nothing for a blank term; otherwise the result is the order-preserving filter of the inventory by "name or code contains the term, ignoring case" |
| Cart.SearchAppend | frontend/src/App.jsx:538-543 | searching two inventories joined gives the two results joined, so results keep the inventory's order and multiplicity |
| Cart.EmptyTermShowsAll | my-pos/src/App.jsx:175-178 | without the blank guard, an empty term shows the whole inventory |
| Cart.ApplySale | frontend/src/App.jsx:501-517 | every product with a cart line loses that line's quantity; every other product and every other field is untouched |
| Cart.ApplySaleKeepsStockNonNegative | frontend/src/App.jsx:501-517 | a cart within stock leaves no cached quantity negative |
| Cart.ApplySaleRemovesCartUnits | frontend/src/App.jsx:501-517 | the units on hand drop by exactly the units in the cart |
| Checkout.Serialize | frontend/src/App.jsx:481-486 | one item per cart line with its code and quantity; the later screen also sends name and price, the earlier one does not |
| Checkout.Submit | frontend/src/App.jsx:472-486 | a request is issued exactly when the cart is non-empty and, in the later screen, no sale is in flight; it carries the current cart and inventory; the later screen raises its in-flight flag |
| Checkout.Resolve | frontend/src/App.jsx:501-524 | an accepted sale clears the cart and applies the request's cart to the request's inventory; any other answer keeps cart, inventory and amount; the later screen always drops its flag |
| Checkout.SecondClickIssuesNothing | frontend/src/App.jsx:950 | while a later-screen request is in flight, a second click issues nothing |
| Checkout.EarlierRevisionDoubleSubmits | my-pos/src/App.jsx:107-167 | the earlier screen issues a second request on a second click |
| Checkout.FailedSaleRestores | frontend/src/App.jsx:472-525 | a declined or failed sale leaves the screen exactly as before the click |
| Checkout.AcceptedSaleReconciles | my-pos/src/App.jsx:131-159 | an accepted sale empties the cart and takes exactly its units off the cached stock, none going negative |
| Checkout.SaleOfTwoShirts | frontend/src/App.jsx:501-517 | two "CAM001" against a stock of 15 leave 13, and the other product is untouched |
| SriClient.Details | backend/sri_facturacion.py:71-78 | one detail per message, in order; identificador, mensaje and tipo are the message's or "" when missing; informacion_adicional is the message's (or "") for reception details and absent for authorization details |
| SriClient.ClassifyReception | backend/sri_facturacion.py:38-94 | success exactly on RECIBIDA; an exception is ERROR with the prefixed text; a missing state reads ERROR; DEVUELTA with an empty voucher list is ERROR with the prefixed index error; DEVUELTA whose first voucher has messages reports them all as errors, with the first one's message or "Error desconocido"; any other DEVUELTA reports no errors and an empty message |
| SriClient.DevueltaReportsTheVoucherMessages | backend/sri_facturacion.py:66-79 | when the first voucher's messages carry every attribute, the reported errors give them back one for one and in order, and the reported message is the first one's |
| SriClient.Outcome | backend/sri_facturacion.py:128-179 | an exception on the last attempt is ERROR with the prefixed text; AUTORIZADO carries the key, number, date, environment and document, and the warnings exactly when the answer has messages; a rejection carries its state, the key, every message as an error, and the first message or "Comprobante no autorizado" |
| SriClient.PollFrom | backend/sri_facturacion.py:110-186 | from attempt i, the loop stops at the first decisive answer and returns its outcome, or makes every remaining query and times out |
| SriClient.Poll | backend/sri_facturacion.py:96-186 | at most max queries and one sleep fewer; TIMEOUT exactly when no answer is decisive; an authorization, a rejection or an error result comes from the last query's answer |
| SriClient.LaterRepliesIgnored | backend/sri_facturacion.py:155-171 | answers after the first decisive one never change the result |
| Invoice.LoadCounter | backend/sri_manager.py:29-36 | the stored counter, or 0 when the file or the key is missing; no counter at all (the decoding error escapes) exactly when the file does not parse |
| Invoice.Increment | backend/sri_manager.py:38-50 | the counter goes up by one in memory; a successful write stores the new value; a failed open leaves the file as it was; a failure after opening leaves it truncated and unparseable |
| Invoice.SavedCounterSurvivesRestart | backend/sri_manager.py:29-50 | after a successful write, a restart resumes at the number just used |
| Invoice.FailedSaveReusesNumber | backend/sri_manager.py:29-50 | after a write whose open failed, a restart hands out the same number again |
| Invoice.TruncatedSaveBlocksRestart | backend/sri_manager.py:29-50 | after a write that failed once the file was truncated, a restart cannot load any counter |
| Invoice.PrepareClient | backend/sri_manager.py:108-135 | identification type "04" exactly for 13 characters, "05" exactly for 10, "06" otherwise; missing address, email and phone read "N/A", "" and "" |
| Invoice.PrepareClientRoundTrip | backend/sri_manager.py:108-135 | a customer with every optional key is read back unchanged from the prepared record |
| Invoice.FormatCart | backend/sri_manager.py:67-90 | one invoice line per cart line, in order |
| Invoice.PrepareSale | backend/sri_manager.py:52-106 | an empty cart has no sale data; otherwise every line carries its code, name, base and 15% VAT with no discount, under tax code "4" and payment "01", with seller (default "Sistema") and email |
| Invoice.SumsOfFormattedLines | backend/sri_manager.py:67-92 | the lines' bases add up to the value of the goods, and their VAT to 15% of it |
| Invoice.InvoiceTotals | backend/sri_manager.py:52-106 | the subtotal is the value of the goods, the VAT is 15/100 of it and the total 115/100 |
| Invoice.Emit | backend/sri_manager.py:137-263 | the number is spent whatever happens; an empty cart is a critical error; an issued invoice carries the zero-filled number, "001-001-number" and the sale total |
| Invoice.EmitOutcomes | backend/sri_manager.py:148-263 | critical exactly when the cart is empty, the key is not numeric or signing fails; refused by reception (no state) exactly when reception did not answer RECIBIDA, with reception's message and errores; refused by authorization with the poll's state, message and errores; issued exactly when the poll ended AUTORIZADO, carrying the poll's authorization number, date, environment and warnings |
| Invoice.IssuedKeyIsValid | backend/sri_manager.py:154-253 | with a counter below 999,999,999 and a code in range, a critical error means an empty cart or a signing failure; an issued invoice's key is a valid 49-digit key whose sequence field is the invoice's number |
| Invoice.InvoiceNumbersDistinct | backend/sri_manager.py:249-250 | different sequence numbers print as different invoice numbers |
| Invoice.InvoiceNumberInjective | backend/sri_manager.py:249-250 | the invoice number determines the sequence number |
| Invoice.NumbersUnique | backend/sri_manager.py:154 | emissions numbered consecutively from a non-negative counter issue pairwise distinct invoice numbers |
| Invoice.EmitSession | backend/sri_manager.py:46-50 | a session of n emissions uses the numbers counter+1..counter+n in order, ends the counter at counter+n, and never issues the same invoice number twice |
| Stock.FindRow | backend/pos_backend.py:308-309 | the first row with the code, or no row has it |
| Stock.SetQuantity | backend/pos_backend.py:344 | only the row's quantity changes |
| Stock.UpdateStock | backend/pos_backend.py:302-377 | an unknown code is refused with the attribute error; a cell that does not read fails, before any check, with the error of the first failing read in the source's order (quantity, unit, prices and minimum): `float()`'s TypeError for a blank number, its ValueError for non-numeric text, the attribute error for a blank unit; a whole-unit product refuses a fractional quantity; otherwise a quantity above the stock is refused; otherwise the update happens, lowering exactly that row by the quantity, never below zero, alerting exactly at or below the minimum, and pricing from tier 2 exactly for "precio_2" |
| Stock.UpdateConservesUnits | backend/pos_backend.py:333-344 | an update takes exactly the sold quantity off the sheet's total |
| Stock.ReadError | backend/pos_backend.py:314-320 | the row's read fails exactly when the quantity, the unit or one of the prices and minimum does not read, and the first failing cell in reading order decides the error |
| Stock.BlankUnitBlocksSale | backend/pos_backend.py:316-376 | a product with a blank unit cell and a readable quantity is refused with the `.lower()` attribute error, whatever the quantity and tier |
| Stock.NegativeSaleRestocks | backend/pos_backend.py:325-344 | on a readable row, a negative quantity passes both checks and raises the stock |
| Stock.RunItems | backend/pos_backend.py:430-466 | items are updated in order until the first failure; the failing item's message is "Error en code: reason"; an item without a price type stops the loop by raising |
| Stock.RunItemsSteps | backend/pos_backend.py:430-443 | every update reported is exactly what the stock update returned for that item, run on the sheet the earlier items left, and the sheet after it is the one carried forward |
| Stock.RunItemsConservesUnits | backend/pos_backend.py:430-466 | the sheet loses exactly the quantities of the updates made, even when the loop stops early |
| Stock.Alerts | backend/pos_backend.py:462-466 | no more alerts than updates; each alert is the name and remaining quantity of an update that raised one, and every such update has its alert |
| Stock.AlertsAppend | backend/pos_backend.py:462-466 | the alerts of two runs of updates joined are the two alert lists joined, so alerts keep the updates' order and multiplicity |
| Stock.AlertsOne | backend/pos_backend.py:462-466 | a single update gives one alert exactly when it raised one |
| Stock.ProcessSale | backend/pos_backend.py:419-529 | sold exactly when every item updates and the history saves; the sale reports the run's own updates, their total and their alerts; a failed item is reported with its "Error en code: reason" text; a failed save reports the prefixed error; the written sheet is kept in every case |
| Stock.FailureKeepsEarlierUpdates | backend/pos_backend.py:439-443 | on a failure at item k, the sheet is what the first k items alone leave: no rollback |
| Stock.LastN | backend/pos_backend.py:543-544 | `records[-limit:]` is a suffix: the last limit records, or for a negative limit all but the first -limit |
| Stock.DateFilterIsSelection | backend/pos_backend.py:537-540 | filtering by one bound then the other selects exactly the records within both |
| Stock.History | backend/pos_backend.py:531-549 | the result is the order-preserving selection of the records within the active bounds; a positive limit keeps the last limit of them, a negative one drops the first -limit; records of the sheet, in range, every one of them without a limit |
| Stock.DateFilterSelects | backend/pos_backend.py:537-540 | the filtered records are in the sheet and in range, and every record in range is kept |
| Stock.CrossedBoundsSelectNothing | backend/pos_backend.py:537-540 | a lower bound after the upper bound selects nothing |
| Profit.RoundHalfUp | backend/pos_backend.py:678-682 | the nearest integer, with ties away from zero |
| Profit.RoundHalfEven | backend/pos_backend.py:741-747 | the nearest integer, with ties to the even one |
| Profit.RoundHalfEvenUnique | backend/pos_backend.py:741-747 | the nearest-with-ties-to-even condition has exactly one solution |
| Profit.RoundHalfUpUnique | backend/pos_backend.py:678-682 | the nearest-with-ties-away-from-zero condition has exactly one solution |
| Profit.NearestUnique | backend/pos_backend.py:678-682 | two integers within half a step of one point are equal, or both sit at a tie one apart |
| Profit.CostOf | backend/pos_backend.py:616 | the cost of the last inventory row with the code (0 without a cost column), or 0 for an unknown code |
| Profit.Thousandths | backend/pos_backend.py:678-679 | a product of two thousandths amounts is rounded to the nearest thousandth, a tie going away from zero |
| Profit.ToCents | backend/pos_backend.py:682 | a thousandths amount is rounded to the nearest hundredth, a tie going away from zero |
| Profit.DetailOf | backend/pos_backend.py:672-701 | date, time, product name, code, quantity and price are the sale's; revenue and cost are the nearest thousandths of price and cost times quantity, and profit the nearest hundredth of their difference, ties away from zero; the seller defaults to "Sistema" |
| Profit.Details | backend/pos_backend.py:671-701 | one detail per sale of the period, in order |
| Profit.Total | backend/pos_backend.py:685-687 | the grand total counts every sale |
| Profit.TotalWhere | backend/pos_backend.py:704-728 | a key with no sale has all-zero sums |
| Profit.TotalWhereCount | backend/pos_backend.py:704-716 | a key has non-empty sums exactly when some sale carries that key |
| Profit.AddDetail | backend/pos_backend.py:704-728 | a new key opens a bucket at the end; a known key adds the sale to its bucket; keys stay unique |
| Profit.Group | backend/pos_backend.py:704-728 | the dictionary has unique keys |
| Profit.GroupSums | backend/pos_backend.py:704-728 | a key has a bucket exactly when some sale has that key, and the bucket holds exactly those sales' sums |
| Profit.GroupsAddUp | backend/pos_backend.py:704-728 | the buckets' sums add up to the grand total |
| Profit.InsertPermutes | backend/pos_backend.py:734-735 | insertion adds exactly the one element |
| Profit.InsertKeepsOrder | backend/pos_backend.py:734-735 | insertion into a descending list keeps it descending |
| Profit.SortDesc | backend/pos_backend.py:734-735 | the result is a permutation of the input, sorted by falling rank |
| Profit.TopTen | backend/pos_backend.py:748 | the first ten of a sorted list, or all when fewer, still sorted |
| Profit.PrefixIsTop | backend/pos_backend.py:748 | the first k of a falling list are part of it, and nothing left over ranks above any of them |
| Profit.ProductStats | backend/pos_backend.py:704-716 | one product line per bucket, carrying its sums |
| Profit.ProductTable | backend/pos_backend.py:734-748 | ten (or all) product lines by falling profit, none left out ranking above one kept |
| Profit.SellerStats | backend/pos_backend.py:719-728 | one seller line per bucket, with its sale count, revenue and profit |
| Profit.SellerTable | backend/pos_backend.py:735-749 | every seller line exactly once, by falling revenue |
| Profit.Margin | backend/pos_backend.py:731 | 0 without revenue; otherwise the net over the revenue, as a percentage rounded to the nearest thousandth, a tie going away from zero |
| Profit.Hundredths | backend/pos_backend.py:741-744 | a thousandths amount is shown as the nearest hundredth, a tie going to the even one |
| Profit.Ticket | backend/pos_backend.py:747 | 0 without sales; otherwise the nearest hundredth of revenue over the number of sales, a tie going to the even one |
| Profit.Assemble | backend/pos_backend.py:737-752 | the headline figures display the given sums: the counts as they are, every money figure as the nearest hundredth with ties to even, the margin as the displayed margin of the net, no margin without revenue |
| Profit.Summarize | backend/pos_backend.py:663-752 | the figures display the period's grand total; the product table is ten (or all, when fewer) of the product lines, by falling profit, none left out ranking above one kept; the seller table is a permutation of the seller lines, by falling revenue; the detail list is every sale |
| Profit.Analyze | backend/pos_backend.py:603-760 | an unreadable cost cell anywhere raises and fails first; then an unknown period, or a custom one without both dates, is refused with "Período no válido"; then an unreadable quantity or price in a sale of the period raises; a report is returned exactly otherwise, and it counts every sale of the period |
| Profit.SellersCoverEverySale | backend/pos_backend.py:719-728 | the seller table counts every sale once, and its revenues add up to the total revenue |
| Profit.ProductLineSumsItsSales | backend/pos_backend.py:704-716 | a product that some sale of the period carries has a line, holding exactly the sums of that product's sales |
| Profit.ProductInReportSumsItsSales | backend/pos_backend.py:704-748 | every product in the report's table has figures that are exactly the sums of its code's sales |
| Profit.AnalyzeReportsEverySeller | backend/pos_backend.py:719-752 | a report the analysis returns lists the seller of every row of the period, with exactly that seller's count, revenue and profit |
| Profit.SellerLineInReport | backend/pos_backend.py:719-749 | every seller with a sale in the period is in the report's table, with the count, revenue and profit of exactly their sales |
| Profit.DisplayedNetIsNotDisplayedDifference | backend/pos_backend.py:730-743 | revenue 0.015 and cost 0.005 show as 0.02 and 0.00, while the net shows as 0.01 |

## Left out

- Rendering, `alert` pop-ups, `fetch` and JSON parsing are not modelled. Each gateway answer is an input (accepted, declined or unreachable).
- The invoice-issuing checkout of the later screen (`processSaleWithInvoice`) is not modelled. It is a second caller of the same coordinator.
- The earlier screen's inventory reload after a sale is not modelled (it is network I/O). The model applies the sale to the cached inventory, as the later screen does.
- JavaScript `parseFloat` and floating-point arithmetic are replaced by exact integers in cents and units. Backend floats are replaced by thousandths, and the invoice's floats by exact reals.
- Stock.FindRow: gspread's `find` searches every cell of the sheet. The model searches the code column only.
- Stock.UpdateStock: the timestamp written to the row is not modelled (it is a clock read).
- Stock.UpdateStock: an empty cell is taken to read as None, as in the gspread releases whose `find` returns None for a missing value; the TypeError text is that of Python 3.10 and later.
- Stock.UpdateStock: the conversion error quotes the cell text as `'text'`. Python's `repr` switches to double quotes or escapes for text holding a quote; that is not modelled.
- Stock.ProcessSale: the sale id, its random suffix and the history rows' columns are not modelled. The save's failure is an input.
- Text.ToLower: covers ASCII and Latin-1 letters only, not full Unicode case mapping.
- Profit.Analyze: the date arithmetic of the periods and the filtering of sales by date and time are not modelled. The rows given are taken to be those of the period.
- Profit.Analyze: Decimal's 28-digit context is not modelled. The average ticket is computed exactly before rounding.
- Profit.SortDesc: sort stability is not stated. Equal ranks may come out in any order the insertion sort leaves.
- Profit.Margin: the quotient is taken exactly. Decimal divides to 28 significant digits before quantizing, which can move a result that lies within 10^-28 of a tie.
- Profit.Analyze: the text of a caught exception is not modelled. The failure records only that the catch-all fired.
- Invoice.Emit: the text of a critical error's exception is not modelled. The outcome records which of the three faults occurred.
- Invoice.LoadCounter: a file that parses as JSON but is not an object, or holds a counter that is not an integer, is not modelled.
- XML generation beyond the access key is not modelled: no XAdES signing with lxml, and no SOAP transport through zeep.
- Writing XML files to disk (`guardar_xml`) and the sleeps between polls are not modelled. The sleeps are only counted.
- Invoice.PrepareClient: the client data only shapes the record. The invoice XML that would use it is not modelled.
- AccessKey.DateDigits: years are limited to 1000–9999, so the date is always eight digits.
- The thread pool, the receipt printer, users and authentication, and product creation are not modelled. They are outside the sale, stock, report and invoicing logic.

=== FILE: access_key.dfy ===
/** The 49-digit access key ("clave de acceso") of an SRI electronic invoice
    and its modulo 11 check digit. */
module AccessKey {
  import opened Wrappers
  import opened Text

  // ------------------------------------------------------------ check digit

  /** Weight of the digit at 0-based position `i`, counted from the LEFT:
      7, 6, 5, 4, 3, 2, 7, 6, ... (the multiplier the generator resets to 7
      once it drops below 2). */
  function LeftWeight(i: nat): (w: nat)
    ensures 2 <= w <= 7
  {
    7 - i % 6
  }

  /** The weight drops by one per position and wraps from 2 back to 7. */
  lemma LeftWeightStep(i: nat)
    ensures LeftWeight(i + 1) == if LeftWeight(i) == 2 then 7 else LeftWeight(i) - 1
  {
  }

  /** Sum of digit times left-to-right weight. */
  function LeftWeightedSum(s: string): nat
    requires AllDigits(s)
  {
    if |s| == 0 then 0
    else LeftWeightedSum(s[..|s| - 1]) + DigitValue(s[|s| - 1]) * LeftWeight(|s| - 1)
  }

  /** The textbook modulo 11 sum: weights 2, 3, 4, 5, 6, 7, 2, ... counted from
      the RIGHT; `offset` is how many digits to the right were already weighed. */
  function RightWeightedSum(s: string, offset: nat): nat
    requires AllDigits(s)
  {
    if |s| == 0 then 0
    else DigitValue(s[|s| - 1]) * (2 + offset % 6) + RightWeightedSum(s[..|s| - 1], offset + 1)
  }

  /** Map a weighted sum to its check digit: 11 - (sum mod 11), with 11 read
      as 0 and 10 read as 1. */
  function Mod11Digit(sum: nat): (d: nat)
    ensures d <= 9
    ensures sum % 11 == 0 ==> d == 0
    ensures sum % 11 == 1 ==> d == 1
    ensures sum % 11 >= 2 ==> (sum + d) % 11 == 0
  {
    var resultado := 11 - sum % 11;
    if resultado == 11 then 0 else if resultado == 10 then 1 else resultado
  }

  /** `calcular_digito_verificador`: `None` when some character is not a
      decimal digit (where Python's `int(digito)` raises). */
  function CheckDigit(s: string): (r: Option<nat>)
    ensures r.None? <==> !AllDigits(s)
    ensures r.Some? ==> r.value <= 9
  {
    if AllDigits(s) then Some(Mod11Digit(LeftWeightedSum(s))) else None
  }

  /** The generator's loop itself: a multiplier that starts at 7, drops by one
      per digit and wraps back to 7 below 2. */
  method ComputeCheckDigit(s: string) returns (r: Option<nat>)
    ensures r == CheckDigit(s)
  {
    var multiplicador := 7;
    var suma := 0;
    var i := 0;
    while i < |s|
      invariant 0 <= i <= |s|
      invariant AllDigits(s[..i])
      invariant multiplicador == LeftWeight(i)
      invariant suma == LeftWeightedSum(s[..i])
    {
      if !IsDigit(s[i]) {
        return None;
      }
      assert s[..i + 1][..i] == s[..i];
      assert AllDigits(s[..i + 1]);
      assert LeftWeightedSum(s[..i + 1]) == suma + DigitValue(s[i]) * multiplicador;
      LeftWeightStep(i);
      suma := suma + DigitValue(s[i]) * multiplicador;
      multiplicador := multiplicador - 1;
      if multiplicador < 2 {
        multiplicador := 7;
      }
      i := i + 1;
    }
    assert s[..i] == s;
    r := Some(Mod11Digit(suma));
  }

  /** For a length that is a multiple of 6 — the 48 digits of a key body among
      them — weighing 7..2 from the left equals weighing 2..7 from the right. */
  lemma {:induction false} LeftEqualsRight(s: string, offset: nat)
    requires AllDigits(s)
    requires (|s| + offset) % 6 == 0
    ensures LeftWeightedSum(s) == RightWeightedSum(s, offset)
  {
    if |s| > 0 {
      assert LeftWeight(|s| - 1) == 2 + offset % 6;
      LeftEqualsRight(s[..|s| - 1], offset + 1);
    }
  }

  /** A length where the two weightings part ways: "01" sums to 6 from the
      left (0*7 + 1*6) but to 2 from the right (1*2 + 0*3). */
  lemma LeftDiffersFromRightOnShortInput()
    ensures AllDigits("01")
    ensures LeftWeightedSum("01") == 6 && RightWeightedSum("01", 0) == 2
  {
    assert "01"[..1] == "0";
  }

  // ------------------------------------------------------------------- key

  datatype Date = Date(day: int, month: int, year: int)

  predicate ValidDate(d: Date) {
    1 <= d.day <= 31 && 1 <= d.month <= 12 && 1000 <= d.year <= 9999
  }

  /** `strftime('%d%m%Y')`. */
  function DateDigits(d: Date): (r: string)
    requires ValidDate(d)
    ensures |r| == 8 && AllDigits(r)
  {
    NatToStringLength(d.day, 2);
    NatToStringLength(d.month, 2);
    NatToStringLength(d.year, 4);
    NatToStringLength(d.year, 3);
    ZFillKeepsValue(d.day, 2);
    ZFillKeepsValue(d.month, 2);
    assert Pow10(2) == 100 && Pow10(3) == 1000 && Pow10(4) == 10000;
    ZFill(NatToString(d.day), 2) + ZFill(NatToString(d.month), 2) + NatToString(d.year)
  }

  /** The issuer settings the key embeds (configuration constants). */
  datatype Issuer = Issuer(ruc: string, ambiente: int, establecimiento: string,
                           puntoEmision: string, tipoEmision: int)

  /** The 48 characters before the check digit: date, document type "01"
      (invoice), RUC, environment, series, 9-digit sequence number, 8-digit
      numeric code, emission type. */
  function KeyBody(date: Date, issuer: Issuer, secuencial: int, codigo: int): string
    requires ValidDate(date)
  {
    DateDigits(date) + "01" + issuer.ruc + IntToString(issuer.ambiente)
      + (issuer.establecimiento + issuer.puntoEmision)
      + ZFill(IntToString(secuencial), 9) + IntToString(codigo) + IntToString(issuer.tipoEmision)
  }

  /** `generar_clave_acceso` with the clock reading and the random
      `randint(10000000, 99999999)` draw passed in. `None` is the ValueError
      the check digit raises on a non-digit character. */
  function GenerateKey(date: Date, issuer: Issuer, secuencial: int, codigo: int): (r: Option<string>)
    requires ValidDate(date)
    ensures r.Some? <==> AllDigits(KeyBody(date, issuer, secuencial, codigo))
    ensures r.Some? ==> |r.value| == |KeyBody(date, issuer, secuencial, codigo)| + 1
    ensures r.Some? ==> r.value[..|r.value| - 1] == KeyBody(date, issuer, secuencial, codigo)
    ensures r.Some? ==> IsDigit(r.value[|r.value| - 1])
    ensures r.Some? ==> r.value == KeyBody(date, issuer, secuencial, codigo)
                                   + [DigitChar(CheckDigit(KeyBody(date, issuer, secuencial, codigo)).value)]
  {
    var body := KeyBody(date, issuer, secuencial, codigo);
    match CheckDigit(body)
    case None => None
    case Some(dv) =>
      var key := body + NatToString(dv);
      assert key[..|key| - 1] == body;
      Some(key)
  }

  /** What a receiver checks: 49 decimal digits whose last one is the
      textbook right-to-left modulo 11 digit of the other 48. */
  predicate ValidKey(k: string) {
    |k| == 49 && AllDigits(k) && DigitValue(k[48]) == Mod11Digit(RightWeightedSum(k[..48], 0))
  }

  /** Inputs within the fixed field widths. */
  predicate WellFormedInputs(issuer: Issuer, secuencial: int, codigo: int) {
    && |issuer.ruc| == 13 && AllDigits(issuer.ruc)
    && 0 <= issuer.ambiente <= 9
    && |issuer.establecimiento + issuer.puntoEmision| == 6
    && AllDigits(issuer.establecimiento + issuer.puntoEmision)
    && 0 <= secuencial < 1_000_000_000
    && 10_000_000 <= codigo <= 99_999_999
    && 0 <= issuer.tipoEmision <= 9
  }

  lemma NineDigitSequence(secuencial: int)
    requires 0 <= secuencial < 1_000_000_000
    ensures |ZFill(IntToString(secuencial), 9)| == 9
    ensures AllDigits(ZFill(IntToString(secuencial), 9))
  {
    NatToStringLength(secuencial, 9);
    assert Pow10(9) == 1_000_000_000;
  }

  lemma EightDigitCode(codigo: int)
    requires 10_000_000 <= codigo <= 99_999_999
    ensures |IntToString(codigo)| == 8
  {
    NatToStringLength(codigo, 8);
    NatToStringLength(codigo, 7);
    assert Pow10(8) == 100_000_000;
    assert Pow10(7) == 10_000_000;
  }

  /** Well-formed inputs give 48 digits with every field at its fixed position. */
  lemma BodyLayout(date: Date, issuer: Issuer, secuencial: int, codigo: int)
    requires ValidDate(date)
    requires WellFormedInputs(issuer, secuencial, codigo)
    ensures var body := KeyBody(date, issuer, secuencial, codigo);
      && |body| == 48 && AllDigits(body)
      && body[..8] == DateDigits(date)
      && body[8..10] == "01"
      && body[10..23] == issuer.ruc
      && body[23] == DigitChar(issuer.ambiente)
      && body[24..30] == issuer.establecimiento + issuer.puntoEmision
      && body[30..39] == ZFill(IntToString(secuencial), 9)
      && body[39..47] == IntToString(codigo)
      && body[47] == DigitChar(issuer.tipoEmision)
  {
    var fecha := DateDigits(date);
    var amb := IntToString(issuer.ambiente);
    var serie := issuer.establecimiento + issuer.puntoEmision;
    var sec := ZFill(IntToString(secuencial), 9);
    var cod := IntToString(codigo);
    var tipo := IntToString(issuer.tipoEmision);
    NineDigitSequence(secuencial);
    EightDigitCode(codigo);
    assert amb == [DigitChar(issuer.ambiente)];
    assert tipo == [DigitChar(issuer.tipoEmision)];
    assert AllDigits(cod);
    assert AllDigits("01");
    var p2 := fecha + "01";
    var p3 := p2 + issuer.ruc;
    var p4 := p3 + amb;
    var p5 := p4 + serie;
    var p6 := p5 + sec;
    var p7 := p6 + cod;
    var body := p7 + tipo;
    assert body == KeyBody(date, issuer, secuencial, codigo);
    Join(fecha, "01");
    Join(p2, issuer.ruc);
    Join(p3, amb);
    Join(p4, serie);
    Join(p5, sec);
    Join(p6, cod);
    Join(p7, tipo);
    SliceWithin(body, p7, 0, 8);
    SliceWithin(p7, p6, 0, 8);
    SliceWithin(p6, p5, 0, 8);
    SliceWithin(p5, p4, 0, 8);
    SliceWithin(p4, p3, 0, 8);
    SliceWithin(p3, p2, 0, 8);
    SliceWithin(body, p7, 8, 10);
    SliceWithin(p7, p6, 8, 10);
    SliceWithin(p6, p5, 8, 10);
    SliceWithin(p5, p4, 8, 10);
    SliceWithin(p4, p3, 8, 10);
    SliceWithin(p3, p2, 8, 10);
    SliceWithin(body, p7, 10, 23);
    SliceWithin(p7, p6, 10, 23);
    SliceWithin(p6, p5, 10, 23);
    SliceWithin(p5, p4, 10, 23);
    SliceWithin(p4, p3, 10, 23);
    SliceWithin(body, p7, 23, 24);
    SliceWithin(p7, p6, 23, 24);
    SliceWithin(p6, p5, 23, 24);
    SliceWithin(p5, p4, 23, 24);
    SliceWithin(body, p7, 24, 30);
    SliceWithin(p7, p6, 24, 30);
    SliceWithin(p6, p5, 24, 30);
    SliceWithin(body, p7, 30, 39);
    SliceWithin(p7, p6, 30, 39);
    SliceWithin(body, p7, 39, 47);
    assert body[23] == body[23..24][0];
  }

  /** Two strings side by side: each is recoverable by slicing, and digits
      stay digits. */
  lemma Join(a: string, b: string)
    ensures (a + b)[..|a|] == a && (a + b)[|a|..] == b
    ensures AllDigits(a) && AllDigits(b) ==> AllDigits(a + b)
  {
  }

  /** Any slice of digits is digits. */
  lemma SliceDigits(s: string, i: nat, j: nat)
    requires i <= j <= |s| && AllDigits(s)
    ensures AllDigits(s[i..j])
  {
    assert forall k :: 0 <= k < j - i ==> s[i..j][k] == s[i + k];
  }

  /** A slice inside a known prefix is the prefix's slice. */
  lemma SliceWithin(s: string, a: string, i: nat, j: nat)
    requires |a| <= |s| && s[..|a|] == a
    requires i <= j <= |a|
    ensures s[i..j] == a[i..j]
  {
    assert forall k :: 0 <= k < j - i ==> s[i..j][k] == s[..|a|][i + k];
  }

  /** Well-formed inputs give a 49-digit key with every field at its fixed
      position, and the key passes the textbook modulo 11 check. */
  lemma GeneratedKeyLayout(date: Date, issuer: Issuer, secuencial: int, codigo: int)
    requires ValidDate(date)
    requires WellFormedInputs(issuer, secuencial, codigo)
    ensures GenerateKey(date, issuer, secuencial, codigo).Some?
    ensures var k := GenerateKey(date, issuer, secuencial, codigo).value;
      && |k| == 49 && AllDigits(k)
      && k[..8] == DateDigits(date)
      && k[8..10] == "01"
      && k[10..23] == issuer.ruc
      && k[23] == DigitChar(issuer.ambiente)
      && k[24..30] == issuer.establecimiento + issuer.puntoEmision
      && k[30..39] == ZFill(IntToString(secuencial), 9)
      && k[39..47] == IntToString(codigo)
      && k[47] == DigitChar(issuer.tipoEmision)
      && k[48] == DigitChar(CheckDigit(k[..48]).value)
      && ValidKey(k)
  {
    BodyLayout(date, issuer, secuencial, codigo);
    var body := KeyBody(date, issuer, secuencial, codigo);
    var k := GenerateKey(date, issuer, secuencial, codigo).value;
    assert k == body + [DigitChar(CheckDigit(body).value)];
    KeyOfBody(k, body);
  }

  /** A 48-digit body followed by its check digit is a valid key that keeps
      the body's fields in place. */
  lemma KeyOfBody(k: string, body: string)
    requires |body| == 48 && AllDigits(body)
    requires k == body + [DigitChar(CheckDigit(body).value)]
    ensures k[..48] == body && k[48] == DigitChar(CheckDigit(k[..48]).value)
    ensures k[..8] == body[..8] && k[8..10] == body[8..10] && k[10..23] == body[10..23]
    ensures k[23] == body[23] && k[47] == body[47]
    ensures k[24..30] == body[24..30] && k[30..39] == body[30..39] && k[39..47] == body[39..47]
    ensures AllDigits(k) && ValidKey(k)
  {
    assert k[..48] == body;
    KeyFields(k, body);
    LeftEqualsRight(body, 0);
  }

  /** A 49-character string whose first 48 are `body` has `body`'s fields at
      the same places, and is all digits when `body` and its last one are. */
  lemma KeyFields(k: string, body: string)
    requires |body| == 48 && |k| == 49 && k[..48] == body
    ensures k[..8] == body[..8] && k[8..10] == body[8..10] && k[10..23] == body[10..23]
    ensures k[23] == body[23] && k[47] == body[47]
    ensures k[24..30] == body[24..30] && k[30..39] == body[30..39] && k[39..47] == body[39..47]
    ensures AllDigits(body) && IsDigit(k[48]) ==> AllDigits(k)
  {
    SliceWithin(k, body, 0, 8);
    SliceWithin(k, body, 8, 10);
    SliceWithin(k, body, 10, 23);
    SliceWithin(k, body, 24, 30);
    SliceWithin(k, body, 30, 39);
    SliceWithin(k, body, 39, 47);
    assert forall i :: 0 <= i < 48 ==> k[i] == body[i];
  }

  /** `zfill` pads but never truncates: a sequence number of ten or more digits
      makes the key longer than 49 characters. */
  lemma LongSequenceOverflowsKey(date: Date, issuer: Issuer, secuencial: int, codigo: int)
    requires ValidDate(date)
    requires WellFormedInputs(issuer, 0, codigo)
    requires secuencial >= 1_000_000_000
    ensures GenerateKey(date, issuer, secuencial, codigo).Some?
    ensures |GenerateKey(date, issuer, secuencial, codigo).value| > 49
  {
    LongBody(date, issuer, secuencial, codigo);
  }

  /** The body for a sequence number of ten or more digits: all digits, and
      longer than 48. */
  lemma LongBody(date: Date, issuer: Issuer, secuencial: int, codigo: int)
    requires ValidDate(date)
    requires WellFormedInputs(issuer, 0, codigo)
    requires secuencial >= 1_000_000_000
    ensures AllDigits(KeyBody(date, issuer, secuencial, codigo))
    ensures |KeyBody(date, issuer, secuencial, codigo)| > 48
  {
    NatToStringLength(secuencial, 9);
    assert Pow10(9) == 1_000_000_000;
    var fecha := DateDigits(date);
    var amb := IntToString(issuer.ambiente);
    var serie := issuer.establecimiento + issuer.puntoEmision;
    var sec := ZFill(IntToString(secuencial), 9);
    var cod := IntToString(codigo);
    var tipo := IntToString(issuer.tipoEmision);
    assert sec == NatToString(secuencial);
    assert AllDigits("01");
    Join(fecha, "01");
    Join(fecha + "01", issuer.ruc);
    Join(fecha + "01" + issuer.ruc, amb);
    Join(fecha + "01" + issuer.ruc + amb, serie);
    Join(fecha + "01" + issuer.ruc + amb + serie, sec);
    Join(fecha + "01" + issuer.ruc + amb + serie + sec, cod);
    Join(fecha + "01" + issuer.ruc + amb + serie + sec + cod, tipo);
    EightDigitCode(codigo);
    assert |sec| >= 10;
    assert KeyBody(date, issuer, secuencial, codigo) == fecha + "01" + issuer.ruc + amb + serie + sec + cod + tipo;
  }
}

=== FILE: cart.dfy ===
/** The cart store of the point-of-sale screen, shared verbatim by both React
    revisions: add, change quantity and remove, each checked against the cached
    inventory; the derived total, change due, low-stock list and search filter;
    and the local stock decrement applied once a sale has been accepted. */
module Cart {
  import opened Wrappers
  import opened Text
  import opened Seqs

  /** A product of the cached inventory. Prices are integer cents and
      quantities whole units. */
  datatype Product = Product(id: int, nombre: string, codigo: string,
                             cantidad: int, precio: int, minStock: int)

  type Inventory = seq<Product>

  /** A cart line: a copy of the product as it was when first added
      (`{...product, cantidadVendida}`) and the quantity being sold. */
  datatype Line = Line(product: Product, sold: int)

  type Cart = seq<Line>

  /** What the operator is told: nothing, "¡Producto sin stock!", "¡No hay
      suficiente stock!", or nothing because the click handler threw a
      TypeError (a line or product that is not there). */
  datatype Notice = Quiet | OutOfStock | NotEnoughStock | HandlerFault

  datatype Reply = Reply(cart: Cart, notice: Notice)

  function FindLine(cart: Cart, id: int): (r: Option<nat>)
    ensures r.Some? ==> r.value < |cart| && cart[r.value].product.id == id
    ensures r.Some? ==> forall j :: 0 <= j < r.value ==> cart[j].product.id != id
    ensures r.None? ==> forall j :: 0 <= j < |cart| ==> cart[j].product.id != id
  {
    FirstIndex(cart, (l: Line) => l.product.id == id)
  }

  function FindProduct(inv: Inventory, id: int): (r: Option<nat>)
    ensures r.Some? ==> r.value < |inv| && inv[r.value].id == id
    ensures r.Some? ==> forall j :: 0 <= j < r.value ==> inv[j].id != id
    ensures r.None? ==> forall j :: 0 <= j < |inv| ==> inv[j].id != id
  {
    FirstIndex(inv, (p: Product) => p.id == id)
  }

  predicate UniqueLines(cart: Cart) {
    forall i, j :: 0 <= i < j < |cart| ==> cart[i].product.id != cart[j].product.id
  }

  predicate UniqueProducts(inv: Inventory) {
    forall i, j :: 0 <= i < j < |inv| ==> inv[i].id != inv[j].id
  }

  /** `cart.map(item => item.id === id ? {...item, cantidadVendida: f(item)} : item)`. */
  function MapLines(cart: Cart, id: int, inc: bool, q: int): (r: Cart)
    ensures |r| == |cart|
    ensures forall i :: 0 <= i < |cart| ==> r[i].product == cart[i].product
    ensures forall i :: 0 <= i < |cart| && cart[i].product.id != id ==> r[i] == cart[i]
    ensures forall i :: 0 <= i < |cart| && cart[i].product.id == id ==>
              r[i].sold == (if inc then cart[i].sold + 1 else q)
  {
    seq(|cart|, i requires 0 <= i < |cart| =>
      if cart[i].product.id == id then cart[i].(sold := if inc then cart[i].sold + 1 else q)
      else cart[i])
  }

  // ------------------------------------------------------------ operations

  /** `removeFromCart`: drop every line of that product, keep the rest in order. */
  function RemoveFromCart(cart: Cart, id: int): (r: Cart)
    ensures |r| <= |cart|
    ensures forall i :: 0 <= i < |r| ==> r[i].product.id != id && r[i] in cart
    ensures forall i :: 0 <= i < |cart| && cart[i].product.id != id ==> cart[i] in r
    ensures FindLine(cart, id).None? ==> r == cart
    ensures UniqueLines(cart) ==> UniqueLines(r)
    ensures r == Filter(cart, (l: Line) => l.product.id != id)
  {
    FilterKeepsUnique(cart, (l: Line) => l.product.id != id);
    if FindLine(cart, id).None? then
      FilterKeepsAll(cart, (l: Line) => l.product.id != id);
      Filter(cart, (l: Line) => l.product.id != id)
    else
      Filter(cart, (l: Line) => l.product.id != id)
  }

  /** `addToCart`: refuse a product with no stock; bump an existing line by
      one while it is below the product's stock; otherwise append a new line
      with quantity 1. */
  function AddToCart(cart: Cart, p: Product): (r: Reply)
    ensures r.notice == Quiet <==>
              p.cantidad != 0 &&
              (FindLine(cart, p.id).None? || cart[FindLine(cart, p.id).value].sold < p.cantidad)
    ensures r.notice != Quiet ==> r.cart == cart
    ensures p.cantidad == 0 ==> r.notice == OutOfStock
    ensures r.notice == Quiet && FindLine(cart, p.id).None? ==> r.cart == cart + [Line(p, 1)]
    ensures r.notice == Quiet && FindLine(cart, p.id).Some? ==>
              var k := FindLine(cart, p.id).value;
              |r.cart| == |cart| && r.cart[k] == cart[k].(sold := cart[k].sold + 1)
    ensures UniqueLines(cart) ==> UniqueLines(r.cart)
    ensures UniqueLines(cart) && r.notice == Quiet && FindLine(cart, p.id).Some? ==>
              forall j :: 0 <= j < |cart| && j != FindLine(cart, p.id).value ==> r.cart[j] == cart[j]
  {
    var existing := FindLine(cart, p.id);
    if p.cantidad == 0 then Reply(cart, OutOfStock)
    else if existing.Some? then
      if cart[existing.value].sold >= p.cantidad then Reply(cart, NotEnoughStock)
      else Reply(MapLines(cart, p.id, true, 0), Quiet)
    else Reply(cart + [Line(p, 1)], Quiet)
  }

  /** `updateCartQuantity`: the line's quantity plus `delta`; at or below zero
      the line goes, above the cached stock the change is refused, otherwise
      that line alone takes the new quantity. */
  function UpdateCartQuantity(cart: Cart, inv: Inventory, id: int, delta: int): (r: Reply)
    ensures FindLine(cart, id).None? ==> r == Reply(cart, HandlerFault)
    ensures FindLine(cart, id).Some? && cart[FindLine(cart, id).value].sold + delta <= 0 ==>
              r == Reply(RemoveFromCart(cart, id), Quiet)
    ensures FindLine(cart, id).Some? && cart[FindLine(cart, id).value].sold + delta > 0 ==>
              (r.notice == Quiet <==>
                 FindProduct(inv, id).Some? &&
                 cart[FindLine(cart, id).value].sold + delta <= inv[FindProduct(inv, id).value].cantidad)
    ensures FindLine(cart, id).Some? && cart[FindLine(cart, id).value].sold + delta > 0 && r.notice != Quiet ==>
              r.cart == cart
    ensures FindLine(cart, id).Some? && cart[FindLine(cart, id).value].sold + delta > 0 && r.notice == Quiet ==>
              var k := FindLine(cart, id).value;
              |r.cart| == |cart| && r.cart[k] == cart[k].(sold := cart[k].sold + delta)
              && (UniqueLines(cart) ==> forall j :: 0 <= j < |cart| && j != k ==> r.cart[j] == cart[j])
    ensures UniqueLines(cart) ==> UniqueLines(r.cart)
  {
    match FindLine(cart, id)
    case None => Reply(cart, HandlerFault)
    case Some(k) =>
      var newQuantity := cart[k].sold + delta;
      if newQuantity <= 0 then Reply(RemoveFromCart(cart, id), Quiet)
      else match FindProduct(inv, id)
        case None => Reply(cart, HandlerFault)
        case Some(j) =>
          if newQuantity > inv[j].cantidad then Reply(cart, NotEnoughStock)
          else Reply(MapLines(cart, id, false, newQuantity), Quiet)
  }

  /** Removing then re-adding a product with stock starts it again at 1. */
  lemma RemoveThenAddStartsAtOne(cart: Cart, p: Product)
    requires p.cantidad != 0
    ensures var r := AddToCart(RemoveFromCart(cart, p.id), p);
      r.notice == Quiet && r.cart[|r.cart| - 1] == Line(p, 1)
  {
    var c := RemoveFromCart(cart, p.id);
    assert FindLine(c, p.id).None?;
  }

  // ------------------------------------------------------- stock invariant

  /** The line's product is in the inventory and its quantity is between 1 and
      that product's cached stock. */
  predicate LineWithinStock(inv: Inventory, l: Line) {
    var j := FindProduct(inv, l.product.id);
    j.Some? && 1 <= l.sold <= inv[j.value].cantidad
  }

  predicate WithinStock(cart: Cart, inv: Inventory) {
    UniqueLines(cart) && forall i :: 0 <= i < |cart| ==> LineWithinStock(inv, cart[i])
  }

  /** A well-formed cached inventory: distinct ids, no negative stock. */
  predicate GoodInventory(inv: Inventory) {
    UniqueProducts(inv) && forall i :: 0 <= i < |inv| ==> inv[i].cantidad >= 0
  }

  lemma AddKeepsWithinStock(cart: Cart, inv: Inventory, p: Product)
    requires GoodInventory(inv) && p in inv
    requires WithinStock(cart, inv)
    ensures WithinStock(AddToCart(cart, p).cart, inv)
  {
    var r := AddToCart(cart, p);
    var j :| 0 <= j < |inv| && inv[j] == p;
    assert FindProduct(inv, p.id) == Some(j);
    if r.notice == Quiet {
      match FindLine(cart, p.id)
      case None =>
        assert r.cart == cart + [Line(p, 1)];
        assert LineWithinStock(inv, Line(p, 1));
      case Some(k) =>
        assert LineWithinStock(inv, r.cart[k]);
        assert forall i :: 0 <= i < |r.cart| && i != k ==> r.cart[i] == cart[i];
    }
  }

  lemma UpdateKeepsWithinStock(cart: Cart, inv: Inventory, id: int, delta: int)
    requires WithinStock(cart, inv)
    ensures WithinStock(UpdateCartQuantity(cart, inv, id, delta).cart, inv)
  {
    var r := UpdateCartQuantity(cart, inv, id, delta);
    match FindLine(cart, id)
    case None =>
    case Some(k) =>
      if cart[k].sold + delta <= 0 {
        RemoveKeepsWithinStock(cart, inv, id);
      } else if r.notice == Quiet {
        assert LineWithinStock(inv, r.cart[k]);
        assert forall i :: 0 <= i < |r.cart| && i != k ==> r.cart[i] == cart[i];
      }
  }

  lemma RemoveKeepsWithinStock(cart: Cart, inv: Inventory, id: int)
    requires WithinStock(cart, inv)
    ensures WithinStock(RemoveFromCart(cart, id), inv)
  {
  }

  /** Filtering a cart with one line per product keeps one line per product. */
  lemma {:induction false} FilterKeepsUnique(xs: Cart, keep: Line -> bool)
    ensures UniqueLines(xs) ==> UniqueLines(Filter(xs, keep))
  {
    if |xs| > 0 && UniqueLines(xs) {
      var rest := xs[1..];
      assert UniqueLines(rest);
      FilterKeepsUnique(rest, keep);
      var f := Filter(rest, keep);
      if keep(xs[0]) {
        assert forall i :: 0 <= i < |f| ==> f[i] in rest;
        assert forall i :: 0 <= i < |f| ==> f[i].product.id != xs[0].product.id;
        assert Filter(xs, keep) == [xs[0]] + f;
      }
    }
  }

  /** One operator action on the cart. */
  datatype CartEvent = Add(product: Product) | Change(id: int, delta: int) | Remove(id: int)

  function Apply(cart: Cart, inv: Inventory, e: CartEvent): Cart {
    match e
    case Add(p) => AddToCart(cart, p).cart
    case Change(id, delta) => UpdateCartQuantity(cart, inv, id, delta).cart
    case Remove(id) => RemoveFromCart(cart, id)
  }

  function Run(cart: Cart, inv: Inventory, events: seq<CartEvent>): Cart
    decreases |events|
  {
    if |events| == 0 then cart else Run(Apply(cart, inv, events[0]), inv, events[1..])
  }

  /** With the inventory fixed, any sequence of add, change and remove clicks
      (adds taken from the displayed inventory) keeps every line's quantity
      between 1 and its product's stock, with one line per product. */
  lemma {:induction false} RunKeepsWithinStock(cart: Cart, inv: Inventory, events: seq<CartEvent>)
    requires GoodInventory(inv)
    requires WithinStock(cart, inv)
    requires forall i :: 0 <= i < |events| && events[i].Add? ==> events[i].product in inv
    ensures WithinStock(Run(cart, inv, events), inv)
    decreases |events|
  {
    if |events| > 0 {
      match events[0] {
        case Add(p) => AddKeepsWithinStock(cart, inv, p);
        case Change(id, delta) => UpdateKeepsWithinStock(cart, inv, id, delta);
        case Remove(id) => RemoveKeepsWithinStock(cart, inv, id);
      }
      RunKeepsWithinStock(Apply(cart, inv, events[0]), inv, events[1..]);
    }
  }

  // ------------------------------------------------------- derived values

  /** `calculateTotal`: the sum of price times quantity over the lines. */
  function Total(cart: Cart): int {
    if |cart| == 0 then 0 else cart[0].product.precio * cart[0].sold + Total(cart[1..])
  }

  lemma {:induction false} TotalAppend(a: Cart, b: Cart)
    ensures Total(a + b) == Total(a) + Total(b)
  {
    if |a| == 0 {
      assert a + b == b;
    } else {
      assert (a + b)[1..] == a[1..] + b;
      TotalAppend(a[1..], b);
    }
  }

  /** A successful add raises the total by exactly one unit price: the new
      product's, or the price copied into the existing line. */
  lemma {:induction false} AddRaisesTotalByOnePrice(cart: Cart, p: Product)
    requires UniqueLines(cart)
    requires AddToCart(cart, p).notice == Quiet
    ensures Total(AddToCart(cart, p).cart) ==
              Total(cart) + match FindLine(cart, p.id)
                            case None => p.precio
                            case Some(k) => cart[k].product.precio
  {
    var r := AddToCart(cart, p).cart;
    match FindLine(cart, p.id)
    case None =>
      TotalAppend(cart, [Line(p, 1)]);
    case Some(k) =>
      TotalBumpOne(cart, r, k);
  }

  lemma {:induction false} TotalBumpOne(a: Cart, b: Cart, k: nat)
    requires |a| == |b| && k < |a|
    requires b[k] == a[k].(sold := a[k].sold + 1)
    requires forall j :: 0 <= j < |a| && j != k ==> b[j] == a[j]
    ensures Total(b) == Total(a) + a[k].product.precio
  {
    if k == 0 {
      assert a[1..] == b[1..];
    } else {
      TotalBumpOne(a[1..], b[1..], k - 1);
    }
  }

  /** `calculateChange`: amount received minus the total, an amount that does
      not parse (`parseFloat` gives NaN) counting as 0. */
  function Change(cart: Cart, received: Option<int>): (r: int)
    ensures r + Total(cart) == received.GetOr(0)
    ensures received.None? ==> r == -Total(cart)
  {
    received.GetOr(0) - Total(cart)
  }

  /** What the checkout panel shows under the amount field. */
  datatype ChangeView = Hidden | Vuelto(amount: int) | Falta(amount: int)

  /** "Vuelto" (change) once the received amount covers a positive total,
      "Falta" (still owed) while it does not; nothing for an empty or
      unparseable amount or a zero total. */
  function ShowChange(cart: Cart, received: Option<int>): (r: ChangeView)
    ensures r.Vuelto? <==> received.Some? && Total(cart) > 0 && received.value >= Total(cart)
    ensures r.Falta? <==> received.Some? && Total(cart) > 0 && received.value < Total(cart)
    ensures r.Vuelto? ==> r.amount >= 0 && r.amount == Change(cart, received)
    ensures r.Falta? ==> r.amount > 0 && r.amount + received.value == Total(cart)
  {
    var total := Total(cart);
    match received
    case None => Hidden
    case Some(v) =>
      if v >= total && total > 0 then Vuelto(Change(cart, received))
      else if v < total && total > 0 then Falta(total - v)
      else Hidden
  }

  /** For a positive total and a parsed amount, the panel always shows
      something, and what it shows is the distance between the amount and
      the total, labelled by which side of the total the amount lies. */
  lemma ShowChangeIsDistance(cart: Cart, v: int)
    requires Total(cart) > 0
    ensures var view := ShowChange(cart, Some(v));
      && !view.Hidden?
      && view.amount == (if v >= Total(cart) then v - Total(cart) else Total(cart) - v)
      && (view.Vuelto? <==> v >= Total(cart))
  {
  }

  /** The low-stock alert list: products at or below their minimum, in order. */
  function LowStock(inv: Inventory): (r: Inventory)
    ensures forall i :: 0 <= i < |r| ==> r[i] in inv && r[i].cantidad <= r[i].minStock
    ensures forall i :: 0 <= i < |inv| && inv[i].cantidad <= inv[i].minStock ==> inv[i] in r
    ensures |r| <= |inv| && multiset(r) <= multiset(inv)
    ensures r == Filter(inv, IsLow)
  {
    Filter(inv, IsLow)
  }

  predicate IsLow(p: Product) {
    p.cantidad <= p.minStock
  }

  /** The low-stock list of two inventories joined is the two lists joined,
      and one product is listed exactly when it is at or below its minimum:
      the list keeps the inventory's order and multiplicity. */
  lemma {:induction false} LowStockAppend(a: Inventory, b: Inventory)
    ensures LowStock(a + b) == LowStock(a) + LowStock(b)
  {
    FilterAppend(a, b, IsLow);
  }

  lemma LowStockOne(p: Product)
    ensures LowStock([p]) == if p.cantidad <= p.minStock then [p] else []
  {
    FilterOne(p, IsLow);
  }

  /** The two screen revisions differ in the search filter and the checkout. */
  datatype Revision = Frontend | MyPos

  predicate Matches(p: Product, term: string) {
    Includes(ToLower(p.nombre), ToLower(term)) || Includes(ToLower(p.codigo), ToLower(term))
  }

  /** `filteredInventory`. The later revision shows nothing for a blank
      (white-space only) term; the earlier one has no such guard. */
  function Search(inv: Inventory, term: string, rev: Revision): (r: Inventory)
    ensures rev == Frontend && (forall i :: 0 <= i < |term| ==> IsJsSpace(term[i])) ==> r == []
    ensures !(rev == Frontend && forall i :: 0 <= i < |term| ==> IsJsSpace(term[i])) ==>
              (forall i :: 0 <= i < |r| ==> r[i] in inv && Matches(r[i], term)) &&
              (forall i :: 0 <= i < |inv| && Matches(inv[i], term) ==> inv[i] in r) &&
              r == Filter(inv, (p: Product) => Matches(p, term))
  {
    TrimEmptyIffAllSpace(term);
    if rev == Frontend && Trim(term) == "" then []
    else Filter(inv, (p: Product) => Matches(p, term))
  }

  /** Searching two inventories joined gives the two results joined, so the
      result keeps the inventory's order and multiplicity. */
  lemma {:induction false} SearchAppend(a: Inventory, b: Inventory, term: string, rev: Revision)
    ensures Search(a + b, term, rev) == Search(a, term, rev) + Search(b, term, rev)
  {
    FilterAppend(a, b, (p: Product) => Matches(p, term));
  }

  /** Without the blank guard, an empty term matches every product. */
  lemma EmptyTermShowsAll(inv: Inventory)
    ensures Search(inv, "", MyPos) == inv
  {
    forall i | 0 <= i < |inv|
      ensures Matches(inv[i], "")
    {
      assert OccursAt(ToLower(inv[i].nombre), ToLower(""), 0);
    }
    FilterKeepsAll(inv, (p: Product) => Matches(p, ""));
  }

  // ------------------------------------------------- post-sale reconciliation

  /** The success branch of `processSale`: every inventory item with a cart
      line loses that line's quantity; the rest is untouched. */
  function ApplySale(inv: Inventory, cart: Cart): (r: Inventory)
    ensures |r| == |inv|
    ensures forall i :: 0 <= i < |inv| ==> r[i] == inv[i].(cantidad := r[i].cantidad)
    ensures forall i :: 0 <= i < |inv| && FindLine(cart, inv[i].id).None? ==> r[i] == inv[i]
    ensures forall i :: 0 <= i < |inv| && FindLine(cart, inv[i].id).Some? ==>
              r[i].cantidad == inv[i].cantidad - cart[FindLine(cart, inv[i].id).value].sold
  {
    seq(|inv|, i requires 0 <= i < |inv| =>
      match FindLine(cart, inv[i].id)
      case None => inv[i]
      case Some(k) => inv[i].(cantidad := inv[i].cantidad - cart[k].sold))
  }

  /** A cart within stock never drives a cached quantity below zero. */
  lemma ApplySaleKeepsStockNonNegative(inv: Inventory, cart: Cart)
    requires GoodInventory(inv) && WithinStock(cart, inv)
    ensures forall i :: 0 <= i < |inv| ==> ApplySale(inv, cart)[i].cantidad >= 0
  {
    var r := ApplySale(inv, cart);
    forall i | 0 <= i < |inv|
      ensures r[i].cantidad >= 0
    {
      match FindLine(cart, inv[i].id)
      case None =>
      case Some(k) =>
        assert LineWithinStock(inv, cart[k]);
        assert FindProduct(inv, inv[i].id) == Some(i);
    }
  }

  function UnitsOnHand(inv: Inventory): int {
    if |inv| == 0 then 0 else inv[0].cantidad + UnitsOnHand(inv[1..])
  }

  function UnitsInCart(cart: Cart): int {
    if |cart| == 0 then 0 else cart[0].sold + UnitsInCart(cart[1..])
  }

  /** The cached inventory loses exactly the units in the cart. */
  lemma {:induction false} ApplySaleRemovesCartUnits(inv: Inventory, cart: Cart)
    requires GoodInventory(inv) && WithinStock(cart, inv)
    ensures UnitsOnHand(ApplySale(inv, cart)) == UnitsOnHand(inv) - UnitsInCart(cart)
    decreases |cart|
  {
    if |cart| == 0 {
      ApplyNothing(inv);
    } else {
      var l := cart[0];
      var rest := cart[1..];
      WithinStockTail(cart, inv);
      ApplySaleRemovesCartUnits(inv, rest);
      assert cart == [l] + rest;
      ApplySplit(inv, l, rest);
      var j := ProductSlot(inv, l);
      SlotSurvives(inv, rest, l, j);
      ApplyOneLine(ApplySale(inv, rest), l, j);
    }
  }

  /** A sale keeps every product where it was. */
  lemma SlotSurvives(inv: Inventory, cart: Cart, l: Line, j: nat)
    requires j < |inv| && inv[j].id == l.product.id
    requires forall i :: 0 <= i < |inv| && i != j ==> inv[i].id != l.product.id
    ensures var mid := ApplySale(inv, cart);
      && j < |mid| && mid[j].id == l.product.id
      && forall i :: 0 <= i < |mid| && i != j ==> mid[i].id != l.product.id
  {
    var mid := ApplySale(inv, cart);
    assert forall i :: 0 <= i < |inv| ==> mid[i].id == inv[i].id;
  }

  lemma WithinStockTail(cart: Cart, inv: Inventory)
    requires |cart| > 0 && WithinStock(cart, inv)
    ensures WithinStock(cart[1..], inv)
  {
    assert forall i :: 0 <= i < |cart| - 1 ==> cart[1..][i] == cart[i + 1];
  }

  /** Where the first line's product sits in an inventory with distinct ids. */
  lemma ProductSlot(inv: Inventory, l: Line) returns (j: nat)
    requires UniqueProducts(inv) && LineWithinStock(inv, l)
    ensures j < |inv| && inv[j].id == l.product.id
    ensures forall i :: 0 <= i < |inv| && i != j ==> inv[i].id != l.product.id
  {
    j := FindProduct(inv, l.product.id).value;
  }

  lemma {:induction false} ApplyNothing(inv: Inventory)
    ensures ApplySale(inv, []) == inv
  {
  }

  /** Applying a cart whose first line's product appears in no other line is
      applying the rest, then that line alone. */
  lemma ApplySplit(inv: Inventory, l: Line, rest: Cart)
    requires UniqueLines([l] + rest)
    ensures ApplySale(inv, [l] + rest) == ApplySale(ApplySale(inv, rest), [l])
  {
    var a := ApplySale(inv, [l] + rest);
    var b := ApplySale(ApplySale(inv, rest), [l]);
    forall i | 0 <= i < |inv|
      ensures a[i] == b[i]
    {
      FindLineCons(l, rest, inv[i].id);
    }
  }

  /** Looking up an id in a cart of distinct products with `l` in front. */
  lemma FindLineCons(l: Line, rest: Cart, id: int)
    requires UniqueLines([l] + rest)
    ensures l.product.id == id ==> FindLine([l] + rest, id) == Some(0) && FindLine(rest, id).None?
    ensures l.product.id != id ==>
              FindLine([l] + rest, id) == (match FindLine(rest, id)
                                           case None => None
                                           case Some(k) => Some(k + 1))
  {
    var cart := [l] + rest;
    assert forall j :: 1 <= j < |cart| ==> cart[j] == rest[j - 1];
    if l.product.id == id {
      assert FindLine(cart, id) == Some(0);
      assert forall j :: 0 <= j < |rest| ==> rest[j] == cart[j + 1];
    } else {
      match FindLine(rest, id)
      case None =>
        assert forall j :: 0 <= j < |cart| ==> cart[j].product.id != id;
      case Some(k) =>
        assert cart[k + 1].product.id == id;
    }
  }

  /** A single line applied to an inventory where its product sits at `j`
      alone removes exactly its quantity. */
  lemma ApplyOneLine(inv: Inventory, l: Line, j: nat)
    requires j < |inv| && inv[j].id == l.product.id
    requires forall i :: 0 <= i < |inv| && i != j ==> inv[i].id != l.product.id
    ensures UnitsOnHand(ApplySale(inv, [l])) == UnitsOnHand(inv) - l.sold
  {
    var r := ApplySale(inv, [l]);
    UnitsChangedAt(inv, r, j);
  }

  lemma {:induction false} UnitsChangedAt(a: Inventory, b: Inventory, j: nat)
    requires |a| == |b| && j < |a|
    requires forall i :: 0 <= i < |a| && i != j ==> b[i].cantidad == a[i].cantidad
    ensures UnitsOnHand(b) == UnitsOnHand(a) - a[j].cantidad + b[j].cantidad
  {
    if j == 0 {
      UnitsSame(a[1..], b[1..]);
    } else {
      UnitsChangedAt(a[1..], b[1..], j - 1);
    }
  }

  lemma {:induction false} UnitsSame(a: Inventory, b: Inventory)
    requires |a| == |b|
    requires forall i :: 0 <= i < |a| ==> b[i].cantidad == a[i].cantidad
    ensures UnitsOnHand(b) == UnitsOnHand(a)
  {
    if |a| > 0 {
      UnitsSame(a[1..], b[1..]);
    }
  }
}

=== FILE: checkout.dfy ===
/** The checkout controller of both screen revisions (`processSale`): a click
    turns the cart into a sale request, and the gateway's answer either applies
    the sale to the cached inventory and clears the cart, or changes nothing. */
module Checkout {
  import opened Wrappers
  import opened Cart

  /** The screen state the checkout reads and writes. `received` is the parsed
      "Recibe" amount in cents (`None` when blank or not a number); only the
      later revision has it and the in-flight flag. */
  datatype PosState = PosState(inventory: Inventory, cart: Cart,
                               received: Option<int>, processing: bool)

  /** One serialized cart line. The later revision also sends name and price. */
  datatype SaleItem = SaleItem(codigo: string, cantidadVendida: int,
                               nombre: Option<string>, precio: Option<int>)

  /** A request in flight. The response handler is a closure over the cart and
      inventory of the render in which the button was clicked, so the
      request carries those snapshots. */
  datatype Request = Request(inventory: Inventory, cart: Cart, items: seq<SaleItem>)

  /** What the gateway's answer turned out to be: `success: true`, a body
      with `success: false`, or a failed fetch / unreadable body. */
  datatype SaleResponse = Accepted | Declined(error: Option<string>) | Unreachable

  datatype Submission = Submission(state: PosState, request: Option<Request>)

  function Serialize(cart: Cart, rev: Revision): (items: seq<SaleItem>)
    ensures |items| == |cart|
    ensures forall i :: 0 <= i < |cart| ==>
              items[i].codigo == cart[i].product.codigo && items[i].cantidadVendida == cart[i].sold
    ensures forall i :: 0 <= i < |cart| ==>
              (rev == Frontend ==> items[i].nombre == Some(cart[i].product.nombre)
                                   && items[i].precio == Some(cart[i].product.precio))
              && (rev == MyPos ==> items[i].nombre.None? && items[i].precio.None?)
  {
    seq(|cart|, i requires 0 <= i < |cart| =>
      if rev == Frontend then
        SaleItem(cart[i].product.codigo, cart[i].sold, Some(cart[i].product.nombre), Some(cart[i].product.precio))
      else
        SaleItem(cart[i].product.codigo, cart[i].sold, None, None))
  }

  /** A click on the pay button. An empty cart is refused before any request.
      In the later revision the button is disabled while a sale is in flight,
      and a request sets the in-flight flag; the earlier revision has no flag. */
  function Submit(s: PosState, rev: Revision): (r: Submission)
    ensures r.request.Some? <==> |s.cart| > 0 && (rev == MyPos || !s.processing)
    ensures r.request.None? ==> r.state == s
    ensures r.request.Some? ==>
              r.request.value.cart == s.cart && r.request.value.inventory == s.inventory
              && r.request.value.items == Serialize(s.cart, rev)
    ensures r.request.Some? && rev == Frontend ==> r.state == s.(processing := true)
    ensures rev == MyPos ==> r.state == s
  {
    if |s.cart| == 0 then Submission(s, None)
    else
      var req := Request(s.inventory, s.cart, Serialize(s.cart, rev));
      match rev
      case Frontend => if s.processing then Submission(s, None) else Submission(s.(processing := true), Some(req))
      case MyPos => Submission(s, Some(req))
  }

  /** The answer to a request. On success the inventory becomes the snapshot
      minus the snapshot cart, and the cart (and, in the later revision, the
      received amount) is cleared. Otherwise only the in-flight flag drops. */
  function Resolve(s: PosState, req: Request, resp: SaleResponse, rev: Revision): (r: PosState)
    ensures resp != Accepted ==> r.cart == s.cart && r.inventory == s.inventory && r.received == s.received
    ensures resp == Accepted ==> r.cart == [] && r.inventory == ApplySale(req.inventory, req.cart)
    ensures rev == Frontend ==> !r.processing
    ensures rev == Frontend && resp == Accepted ==> r.received.None?
    ensures rev == MyPos ==> r.processing == s.processing && r.received == s.received
  {
    match resp
    case Accepted =>
      if rev == Frontend then PosState(ApplySale(req.inventory, req.cart), [], None, false)
      else s.(inventory := ApplySale(req.inventory, req.cart), cart := [])
    case _ =>
      if rev == Frontend then s.(processing := false) else s
  }

  /** Single flight: while a request of the later revision is in flight, a
      second click issues nothing. */
  lemma SecondClickIssuesNothing(s: PosState)
    requires Submit(s, Frontend).request.Some?
    ensures Submit(Submit(s, Frontend).state, Frontend).request.None?
  {
  }

  /** The earlier revision has no such guard: two clicks issue two requests. */
  lemma EarlierRevisionDoubleSubmits(s: PosState)
    requires |s.cart| > 0
    ensures Submit(s, MyPos).request.Some?
    ensures Submit(Submit(s, MyPos).state, MyPos).request.Some?
  {
  }

  /** A refused or failed sale puts the screen back exactly as it was. */
  lemma FailedSaleRestores(s: PosState, resp: SaleResponse, rev: Revision)
    requires resp != Accepted && !s.processing
    requires Submit(s, rev).request.Some?
    ensures Resolve(Submit(s, rev).state, Submit(s, rev).request.value, resp, rev) == s
  {
  }

  /** A sale accepted with no other event in between clears the cart and
      takes exactly the cart's units out of the cached stock, none of which
      goes negative when the cart was within stock. */
  lemma AcceptedSaleReconciles(s: PosState, rev: Revision)
    requires GoodInventory(s.inventory) && WithinStock(s.cart, s.inventory)
    requires Submit(s, rev).request.Some?
    ensures var r := Resolve(Submit(s, rev).state, Submit(s, rev).request.value, Accepted, rev);
      && r.cart == []
      && |r.inventory| == |s.inventory|
      && UnitsOnHand(r.inventory) == UnitsOnHand(s.inventory) - UnitsInCart(s.cart)
      && (forall i :: 0 <= i < |r.inventory| ==> r.inventory[i].cantidad >= 0)
  {
    ApplySaleRemovesCartUnits(s.inventory, s.cart);
    ApplySaleKeepsStockNonNegative(s.inventory, s.cart);
  }

  /** A cart of two "CAM001" against a cached stock of 15 leaves 13 and does
      not touch the other product. */
  lemma SaleOfTwoShirts()
    ensures var camisa := Product(1, "Camisa Azul", "CAM001", 15, 2500, 5);
      var pantalon := Product(2, "Pantalón Negro", "PAN001", 8, 4500, 10);
      var s := PosState([camisa, pantalon], [Line(camisa, 2)], Some(10000), false);
      var r := Resolve(Submit(s, Frontend).state, Submit(s, Frontend).request.value, Accepted, Frontend);
      r.inventory == [camisa.(cantidad := 13), pantalon] && r.cart == [] && r.received.None?
  {
    var camisa := Product(1, "Camisa Azul", "CAM001", 15, 2500, 5);
    var pantalon := Product(2, "Pantalón Negro", "PAN001", 8, 4500, 10);
    var cart := [Line(camisa, 2)];
    assert FindLine(cart, 1) == Some(0);
    assert FindLine(cart, 2).None?;
  }
}

=== FILE: invoice.dfy ===
/** The invoicing coordinator: the sequence counter, turning a point-of-sale
    sale and a customer into invoice data, and the emission pipeline (number,
    key, signature, reception, authorization). Amounts are exact reals; the
    clock, the random key code, the signer and the tax authority's answers
    are inputs. */
module Invoice {
  import opened Wrappers
  import opened Text
  import opened AccessKey
  import opened SriClient

  // ----------------------------------------------------------- configuration

  const Establecimiento := "001"
  const PuntoEmision := "001"
  /** RUC, test environment (1), series 001-001, normal emission (1). */
  const Emisor := Issuer("1102762885001", 1, Establecimiento, PuntoEmision, 1)
  /** `consultar_autorizacion`'s default number of attempts. */
  const MaxAttempts := 10
  /** The VAT rate, as a fraction, and its tax-table code. */
  const IvaRate: real := 0.15
  const IvaCode := "4"

  // ------------------------------------------------------- sequence counter

  /** The counter file: absent, a JSON object with or without the key
      `ultimo_secuencial`, or text `json.load` cannot parse (what a write
      that failed after opening leaves: the file is truncated on opening, and
      every proper prefix of the JSON object is malformed). */
  datatype CounterFile = Absent | Stored(ultimo: Option<int>) | Corrupt

  /** `_cargar_secuencial`: the stored value, 0 when the file or the key is
      missing; None when the file does not parse, because only a missing
      file is caught and the decoding error escapes. */
  function LoadCounter(f: CounterFile): (n: Option<int>)
    ensures f.Stored? && f.ultimo.Some? ==> n == Some(f.ultimo.value)
    ensures f.Absent? || (f.Stored? && f.ultimo.None?) ==> n == Some(0)
    ensures n.None? <==> f.Corrupt?
  {
    match f
    case Absent => Some(0)
    case Stored(u) => Some(u.GetOr(0))
    case Corrupt => None
  }

  /** How `_guardar_secuencial`'s write went: written, `open(…, 'w')` failed
      (the file is untouched), or the dump or the close failed after the
      file had been truncated. Either failure is caught and only reported. */
  datatype WriteOutcome = Written | OpenFailed | DumpFailed

  /** `_incrementar_secuencial`: the counter goes up by one and is written
      back. */
  function Increment(counter: int, f: CounterFile, w: WriteOutcome): (r: (int, CounterFile))
    ensures r.0 == counter + 1
    ensures w == Written ==> r.1 == Stored(Some(counter + 1))
    ensures w == OpenFailed ==> r.1 == f
    ensures w == DumpFailed ==> r.1 == Corrupt
  {
    (counter + 1, match w
                  case Written => Stored(Some(counter + 1))
                  case OpenFailed => f
                  case DumpFailed => Corrupt)
  }

  /** After a successful write, a restart resumes from the number just used. */
  lemma SavedCounterSurvivesRestart(counter: int, f: CounterFile)
    ensures LoadCounter(Increment(counter, f, Written).1) == Some(Increment(counter, f, Written).0)
  {
  }

  /** When the file cannot even be opened, a restart resumes from the stale
      value, so the next emission reuses a number already handed out. */
  lemma FailedSaveReusesNumber(counter: int)
    ensures var after := Increment(counter, Stored(Some(counter)), OpenFailed);
      var restarted := LoadCounter(after.1);
      restarted.Some? && Increment(restarted.value, after.1, Written).0 == after.0
  {
  }

  /** When the write fails after the file was truncated, no restart loads a
      counter at all: the manager cannot start until the file is repaired. */
  lemma TruncatedSaveBlocksRestart(counter: int, f: CounterFile)
    ensures LoadCounter(Increment(counter, f, DumpFailed).1).None?
  {
  }

  // ------------------------------------------------------------- customer

  /** The customer dictionary; `None` is a missing optional key. */
  datatype Customer = Customer(identificacion: string, razonSocial: string,
                               direccion: Option<string>, email: Option<string>,
                               telefono: Option<string>)

  datatype ClientData = ClientData(tipoIdentificacion: string, identificacion: string,
                                   razonSocial: string, direccion: string,
                                   email: string, telefono: string)

  /** `preparar_datos_cliente`: 13 characters is a RUC ("04"), 10 a national
      id ("05"), anything else a passport ("06"). */
  function PrepareClient(c: Customer): (r: ClientData)
    ensures r.tipoIdentificacion == "04" <==> |c.identificacion| == 13
    ensures r.tipoIdentificacion == "05" <==> |c.identificacion| == 10
    ensures r.tipoIdentificacion == "06" <==> |c.identificacion| != 13 && |c.identificacion| != 10
    ensures r.identificacion == c.identificacion && r.razonSocial == c.razonSocial
    ensures r.direccion == (if c.direccion.Some? then c.direccion.value else "N/A")
    ensures r.email == (if c.email.Some? then c.email.value else "")
    ensures r.telefono == (if c.telefono.Some? then c.telefono.value else "")
  {
    var tipo := if |c.identificacion| == 13 then "04"
                else if |c.identificacion| == 10 then "05"
                else "06";
    ClientData(tipo, c.identificacion, c.razonSocial,
               c.direccion.GetOr("N/A"), c.email.GetOr(""), c.telefono.GetOr(""))
  }

  /** The customer a client record describes, every optional key present. */
  function CustomerOf(d: ClientData): Customer {
    Customer(d.identificacion, d.razonSocial, Some(d.direccion), Some(d.email), Some(d.telefono))
  }

  /** Preparing a customer that carries every optional key loses nothing:
      the customer can be read back from the record. */
  lemma PrepareClientRoundTrip(c: Customer)
    requires c.direccion.Some? && c.email.Some? && c.telefono.Some?
    ensures CustomerOf(PrepareClient(c)) == c
  {
  }

  // ----------------------------------------------------------------- sale

  datatype SaleLine = SaleLine(codigo: string, nombre: string, cantidad: real, precio: real)

  /** The sale as the point of sale sends it; `vendedor` and the customer's
      e-mail are optional keys. */
  datatype Sale = Sale(cart: seq<SaleLine>, vendedor: Option<string>, email: Option<string>)

  datatype InvoiceItem = InvoiceItem(codigo: string, descripcion: string, cantidad: real,
                                     precioUnitario: real, descuento: real, base: real,
                                     codigoPorcentajeIva: string, tarifaIva: string, valorIva: real)

  datatype SaleData = SaleData(subtotal: real, descuentoTotal: real, ivaTotal: real, total: real,
                               codigoPorcentajeIva: string, formaPago: string,
                               items: seq<InvoiceItem>, infoAdicional: seq<(string, string)>)

  function FormatLine(l: SaleLine): InvoiceItem {
    var base := l.cantidad * l.precio;
    InvoiceItem(l.codigo, l.nombre, l.cantidad, l.precio, 0.0, base, IvaCode, "15", base * IvaRate)
  }

  function FormatCart(cart: seq<SaleLine>): (items: seq<InvoiceItem>)
    ensures |items| == |cart| && forall i :: 0 <= i < |cart| ==> items[i] == FormatLine(cart[i])
  {
    seq(|cart|, i requires 0 <= i < |cart| => FormatLine(cart[i]))
  }

  function SumBase(items: seq<InvoiceItem>): real {
    if |items| == 0 then 0.0 else SumBase(items[..|items| - 1]) + items[|items| - 1].base
  }

  function SumIva(items: seq<InvoiceItem>): real {
    if |items| == 0 then 0.0 else SumIva(items[..|items| - 1]) + items[|items| - 1].valorIva
  }

  /** The value of the goods, independent of the invoice layout. */
  function CartValue(cart: seq<SaleLine>): real {
    if |cart| == 0 then 0.0 else CartValue(cart[..|cart| - 1]) + cart[|cart| - 1].cantidad * cart[|cart| - 1].precio
  }

  /** `preparar_datos_venta`. The tax code is only bound inside the item
      loop, so an empty cart raises (None). */
  function PrepareSale(s: Sale): (r: Option<SaleData>)
    ensures r.None? <==> |s.cart| == 0
    ensures r.Some? ==>
              && |r.value.items| == |s.cart|
              && (forall i :: 0 <= i < |s.cart| ==>
                    && r.value.items[i].codigo == s.cart[i].codigo
                    && r.value.items[i].descripcion == s.cart[i].nombre
                    && r.value.items[i].base == s.cart[i].cantidad * s.cart[i].precio
                    && r.value.items[i].valorIva == r.value.items[i].base * IvaRate
                    && r.value.items[i].descuento == 0.0)
              && r.value.descuentoTotal == 0.0 && r.value.formaPago == "01"
              && r.value.codigoPorcentajeIva == IvaCode
              && r.value.infoAdicional == [("Vendedor", s.vendedor.GetOr("Sistema")),
                                           ("Email", s.email.GetOr(""))]
  {
    if |s.cart| == 0 then None
    else
      var items := FormatCart(s.cart);
      var subtotal := SumBase(items);
      var iva := SumIva(items);
      Some(SaleData(subtotal, 0.0, iva, subtotal + iva, IvaCode, "01", items,
                    [("Vendedor", s.vendedor.GetOr("Sistema")), ("Email", s.email.GetOr(""))]))
  }

  lemma {:induction false} SumsOfFormattedLines(cart: seq<SaleLine>)
    ensures SumBase(FormatCart(cart)) == CartValue(cart)
    ensures SumIva(FormatCart(cart)) == CartValue(cart) * IvaRate
  {
    var items := FormatCart(cart);
    if |cart| > 0 {
      var front := cart[..|cart| - 1];
      SumsOfFormattedLines(front);
      assert items[..|items| - 1] == FormatCart(front);
    }
  }

  /** The invoice's subtotal is the value of the goods, its VAT is 15% of the
      subtotal and its total 115% of it. */
  lemma InvoiceTotals(s: Sale)
    requires |s.cart| > 0
    ensures var d := PrepareSale(s).value;
      && d.subtotal == CartValue(s.cart)
      && d.ivaTotal == d.subtotal * 15.0 / 100.0
      && d.total == d.subtotal * 115.0 / 100.0
  {
    SumsOfFormattedLines(s.cart);
    var items := FormatCart(s.cart);
    var d := PrepareSale(s).value;
    assert d.subtotal == SumBase(items) && d.ivaTotal == SumIva(items);
    var v := CartValue(s.cart);
    assert v * IvaRate == v * 15.0 / 100.0;
    assert v + v * IvaRate == v * 115.0 / 100.0;
  }

  // ------------------------------------------------------------- emission

  /** What the world answers during one emission: the clock, the random key
      code, the signer's failure if any, the reception answer and the
      answers to the authorization queries. */
  datatype Services = Services(date: Date, codigo: int, signError: Option<string>,
                               reception: ReceptionReply, polls: seq<PollReply>)

  /** Why an emission stopped with an exception: an empty cart, a key that
      held a non-digit, or a signing failure. */
  datatype Fault = EmptyCart | KeyNotNumeric | SigningFailed(detail: string)

  datatype Outcome =
    | Issued(claveAcceso: string, numeroAutorizacion: string, fechaAutorizacion: string,
             ambiente: string, secuencial: string, numeroFactura: string, total: real,
             advertencias: seq<Detail>)
    | Refused(error: string, errores: seq<Detail>, claveAcceso: string, estado: Option<string>)
    | Critical(fault: Fault)

  datatype Emission = Emission(counter: int, outcome: Outcome)

  const TimeoutText := "Se agotó el tiempo de espera para la autorización"

  function SequenceText(secuencial: int): string {
    ZFill(IntToString(secuencial), 9)
  }

  /** The printed invoice number, `estab-ptoEmi-secuencial`. */
  function InvoiceNumber(secuencial: int): string {
    Establecimiento + "-" + PuntoEmision + "-" + SequenceText(secuencial)
  }

  /** The `mensaje`, `errores` and `estado` an unsuccessful authorization reports. */
  function AuthMessage(a: AuthResult): string {
    match a
    case Authorized(_, _, _, _, _, _) => ""
    case NotAuthorized(_, _, _, m) => m
    case PollError(m) => m
    case Timeout => TimeoutText
  }

  function AuthErrors(a: AuthResult): seq<Detail> {
    if a.NotAuthorized? then a.errores else []
  }

  function AuthState(a: AuthResult): string {
    match a
    case Authorized(_, _, _, _, _, _) => "AUTORIZADO"
    case NotAuthorized(e, _, _, _) => e
    case PollError(_) => "ERROR"
    case Timeout => "TIMEOUT"
  }

  /** `emitir_factura`. The number is taken first and is spent whatever
      happens next; the sale is prepared, the key generated, the document
      signed, sent, and polled for authorization. */
  function Emit(counter: int, sale: Sale, customer: Customer, env: Services): (e: Emission)
    requires ValidDate(env.date) && |env.polls| >= MaxAttempts
    ensures e.counter == counter + 1
    ensures e.outcome.Critical? && |sale.cart| == 0 ==> e.outcome.fault == EmptyCart
    ensures e.outcome.Issued? ==>
              && PrepareSale(sale).Some?
              && e.outcome.secuencial == SequenceText(counter + 1)
              && e.outcome.numeroFactura == InvoiceNumber(counter + 1)
              && e.outcome.total == PrepareSale(sale).value.total
  {
    var secuencial := counter + 1;
    match PrepareSale(sale)
    case None => Emission(secuencial, Critical(EmptyCart))
    case Some(datos) =>
      match GenerateKey(env.date, Emisor, secuencial, env.codigo)
      case None => Emission(secuencial, Critical(KeyNotNumeric))
      case Some(clave) =>
        if env.signError.Some? then Emission(secuencial, Critical(SigningFailed(env.signError.value)))
        else
          var envio := ClassifyReception(env.reception);
          if !envio.success then
            Emission(secuencial, Refused(envio.mensaje, envio.errores.GetOr([]), clave, None))
          else
            var auth := Poll(env.polls, clave, MaxAttempts).result;
            match auth
            case Authorized(_, numero, fecha, ambiente, _, advertencias) =>
              Emission(secuencial, Issued(clave, numero, fecha, ambiente, SequenceText(secuencial),
                                          InvoiceNumber(secuencial), datos.total,
                                          advertencias.GetOr([])))
            case _ =>
              Emission(secuencial, Refused(AuthMessage(auth), AuthErrors(auth), clave,
                                           Some(AuthState(auth))))
  }

  /** Which of the three outcomes an emission has, and why: a critical
      failure exactly when the cart is empty, the key cannot be built or
      signing fails; a refusal by reception (no authorization state) exactly
      when reception did not answer RECIBIDA; and an issued invoice exactly
      when the authorization poll ended AUTORIZADO. A refusal carries the
      reception's or the authorization's error details; an issued invoice
      carries the authorization's number, date, environment and warnings. */
  lemma EmitOutcomes(counter: int, sale: Sale, customer: Customer, env: Services)
    requires ValidDate(env.date) && |env.polls| >= MaxAttempts
    ensures var e := Emit(counter, sale, customer, env);
      && (e.outcome.Critical? <==>
              |sale.cart| == 0
              || GenerateKey(env.date, Emisor, counter + 1, env.codigo).None?
              || env.signError.Some?)
      && (!e.outcome.Critical? ==>
              e.outcome.claveAcceso == GenerateKey(env.date, Emisor, counter + 1, env.codigo).value)
      && (e.outcome.Refused? && e.outcome.estado.None? <==>
              !e.outcome.Critical? && !ClassifyReception(env.reception).success)
      && (e.outcome.Refused? && e.outcome.estado.None? ==>
              && e.outcome.error == ClassifyReception(env.reception).mensaje
              && e.outcome.errores == ClassifyReception(env.reception).errores.GetOr([]))
      && (e.outcome.Refused? && e.outcome.estado.Some? ==>
              var a := Poll(env.polls, e.outcome.claveAcceso, MaxAttempts).result;
              ClassifyReception(env.reception).success && !a.Authorized?
              && e.outcome.estado.value == AuthState(a) && e.outcome.error == AuthMessage(a)
              && e.outcome.errores == AuthErrors(a))
      && (e.outcome.Issued? ==>
              var a := Poll(env.polls, e.outcome.claveAcceso, MaxAttempts).result;
              && a.Authorized?
              && e.outcome.numeroAutorizacion == a.numeroAutorizacion
              && e.outcome.fechaAutorizacion == a.fechaAutorizacion
              && e.outcome.ambiente == a.ambiente
              && e.outcome.advertencias == a.advertencias.GetOr([]))
      && (e.outcome.Issued? <==>
              !e.outcome.Critical? && ClassifyReception(env.reception).success
              && Poll(env.polls, GenerateKey(env.date, Emisor, counter + 1, env.codigo).value,
                      MaxAttempts).result.Authorized?)
  {
  }

  /** With a counter below 999,999,999 and a code in range, the key is never
      the failure: an issued invoice carries a valid 49-digit key whose
      sequence field is the invoice's own number. */
  lemma IssuedKeyIsValid(counter: int, sale: Sale, customer: Customer, env: Services)
    requires ValidDate(env.date) && |env.polls| >= MaxAttempts
    requires 0 <= counter + 1 < 1_000_000_000
    requires 10_000_000 <= env.codigo <= 99_999_999
    ensures var o := Emit(counter, sale, customer, env).outcome;
      && (o.Critical? <==> |sale.cart| == 0 || env.signError.Some?)
      && (o.Issued? ==> ValidKey(o.claveAcceso) && o.claveAcceso[30..39] == o.secuencial)
  {
    EmitOutcomes(counter, sale, customer, env);
    assert WellFormedInputs(Emisor, counter + 1, env.codigo);
    GeneratedKeyLayout(env.date, Emisor, counter + 1, env.codigo);
  }

  /** Different sequence numbers print as different invoice numbers. */
  lemma InvoiceNumbersDistinct(a: nat, b: nat)
    requires a != b
    ensures InvoiceNumber(a) != InvoiceNumber(b)
  {
    ZFillKeepsValue(a, 9);
    ZFillKeepsValue(b, 9);
    var pre := Establecimiento + "-" + PuntoEmision + "-";
    assert InvoiceNumber(a)[|pre|..] == SequenceText(a);
    assert InvoiceNumber(b)[|pre|..] == SequenceText(b);
  }

  /** One emission request of a session. */
  datatype Job = Job(sale: Sale, customer: Customer, env: Services)

  predicate ValidJob(j: Job) {
    ValidDate(j.env.date) && |j.env.polls| >= MaxAttempts
  }

  /** Emissions numbered consecutively from a non-negative counter never
      issue two invoices with the same number. */
  lemma NumbersUnique(counter: nat, r: seq<Emission>)
    requires forall i :: 0 <= i < |r| && r[i].outcome.Issued? ==>
               r[i].outcome.numeroFactura == InvoiceNumber(counter + i + 1)
    ensures forall i, j :: 0 <= i < j < |r| && r[i].outcome.Issued? && r[j].outcome.Issued? ==>
              r[i].outcome.numeroFactura != r[j].outcome.numeroFactura
  {
    InvoiceNumberInjective();
  }

  lemma InvoiceNumberInjective()
    ensures forall a: nat, b: nat :: InvoiceNumber(a) == InvoiceNumber(b) ==> a == b
  {
    forall a: nat, b: nat | InvoiceNumber(a) == InvoiceNumber(b) ensures a == b {
      if a != b {
        InvoiceNumbersDistinct(a, b);
      }
    }
  }

  /** Emissions numbered consecutively from `counter` stay so when the next
      number's emission is appended. */
  predicate Numbered(counter: int, r: seq<Emission>) {
    forall i :: 0 <= i < |r| ==>
      r[i].counter == counter + i + 1
      && (r[i].outcome.Issued? ==> r[i].outcome.numeroFactura == InvoiceNumber(counter + i + 1))
  }

  lemma NumberedAppend(counter: int, r: seq<Emission>, e: Emission)
    requires Numbered(counter, r)
    requires e.counter == counter + |r| + 1
    requires e.outcome.Issued? ==> e.outcome.numeroFactura == InvoiceNumber(e.counter)
    ensures Numbered(counter, r + [e])
  {
  }

  /** A session of emissions against one counter: each job takes the number
      after the one its predecessor took, an issued invoice prints the number
      its job took, and from a non-negative counter no two issued invoices
      share a number. The final counter is returned. */
  method EmitSession(counter: int, jobs: seq<Job>) returns (r: seq<Emission>, last: int)
    requires forall k :: 0 <= k < |jobs| ==> ValidJob(jobs[k])
    ensures |r| == |jobs| && last == counter + |jobs|
    ensures forall i :: 0 <= i < |r| ==> r[i].counter == counter + i + 1
    ensures forall i :: 0 <= i < |r| && r[i].outcome.Issued? ==>
              r[i].outcome.numeroFactura == InvoiceNumber(counter + i + 1)
    ensures counter >= 0 ==>
              forall i, j :: 0 <= i < j < |r| && r[i].outcome.Issued? && r[j].outcome.Issued? ==>
                r[i].outcome.numeroFactura != r[j].outcome.numeroFactura
  {
    r := [];
    last := counter;
    for k := 0 to |jobs|
      invariant |r| == k && last == counter + k
      invariant Numbered(counter, r)
    {
      var j := jobs[k];
      var e := Emit(last, j.sale, j.customer, j.env);
      NumberedAppend(counter, r, e);
      r := r + [e];
      last := e.counter;
    }
    if counter >= 0 {
      NumbersUnique(counter, r);
    }
  }

}

=== FILE: profit.dfy ===
/** The profit report: per-sale revenue, cost and profit with decimal
    rounding, the report totals, the grouping by product and by seller, and
    the ranking. Amounts are integers in thousandths (hundredths once
    rounded for display); the sales already filtered to the period are an
    input. */
module Profit {
  import opened Wrappers
  import opened Seqs

  // ------------------------------------------------------------- rounding

  function Abs(x: int): nat {
    if x < 0 then -x else x
  }

  /** `n / d` rounded to the nearest integer, ties away from zero: decimal
      ROUND_HALF_UP. */
  function RoundHalfUp(n: int, d: int): (q: int)
    requires d > 0
    ensures 2 * Abs(n - q * d) <= d
    ensures 2 * Abs(n - q * d) == d ==> Abs(q * d) > Abs(n)
  {
    var m := Abs(n);
    var q0 := (2 * m + d) / (2 * d);
    HalfUpNonNegative(m, d, q0);
    if n >= 0 then q0
    else
      assert (-q0) * d == -(q0 * d);
      assert n - (-q0) * d == -(m - q0 * d);
      -q0
  }

  lemma HalfUpNonNegative(m: nat, d: int, q0: int)
    requires d > 0 && q0 == (2 * m + d) / (2 * d)
    ensures 2 * Abs(m - q0 * d) <= d
    ensures 2 * Abs(m - q0 * d) == d ==> q0 * d > m
  {
    var r := (2 * m + d) % (2 * d);
    assert 2 * m + d == q0 * (2 * d) + r;
    assert 2 * (m - q0 * d) == r - d;
  }

  /** `n / d` rounded to the nearest integer, ties to even: decimal
      ROUND_HALF_EVEN, the rounding of Python's `round` on a Decimal. */
  function RoundHalfEven(n: int, d: int): (q: int)
    requires d > 0
    ensures 2 * Abs(n - q * d) <= d
    ensures 2 * Abs(n - q * d) == d ==> q % 2 == 0
  {
    var q0 := n / d;
    var r := n % d;
    assert n == q0 * d + r;
    if 2 * r < d then q0
    else if 2 * r > d then
      assert n - (q0 + 1) * d == r - d;
      q0 + 1
    else if q0 % 2 == 0 then q0
    else
      assert n - (q0 + 1) * d == r - d;
      q0 + 1
  }

  /** The nearest-with-ties-to-even condition has exactly one solution. */
  lemma RoundHalfEvenUnique(n: int, d: int, q: int)
    requires d > 0
    requires 2 * Abs(n - q * d) <= d
    requires 2 * Abs(n - q * d) == d ==> q % 2 == 0
    ensures q == RoundHalfEven(n, d)
  {
    var p := RoundHalfEven(n, d);
    NearestUnique(n, d, q, p);
  }

  /** The nearest-with-ties-away-from-zero condition has exactly one solution. */
  lemma RoundHalfUpUnique(n: int, d: int, q: int)
    requires d > 0
    requires 2 * Abs(n - q * d) <= d
    requires 2 * Abs(n - q * d) == d ==> Abs(q * d) > Abs(n)
    ensures q == RoundHalfUp(n, d)
  {
    var p := RoundHalfUp(n, d);
    NearestUnique(n, d, q, p);
  }

  /** Two integers within half a step of the same point are equal, or the
      point is exactly half-way between them. */
  lemma NearestUnique(n: int, d: int, q: int, p: int)
    requires d > 0 && 2 * Abs(n - q * d) <= d && 2 * Abs(n - p * d) <= d
    ensures q == p || (2 * Abs(n - q * d) == d && 2 * Abs(n - p * d) == d && (q - p == 1 || p - q == 1))
  {
    var a := n - q * d;
    var b := n - p * d;
    var e := q - p;
    assert b - a == e * d by { assert q * d - p * d == (q - p) * d; }
    if e >= 2 {
      AtLeastTwoSteps(e, d);
    } else if e <= -2 {
      AtLeastTwoSteps(-e, d);
    } else if e == 1 {
      assert b - a == d;
    } else if e == -1 {
      assert b - a == -d;
    }
  }

  lemma AtLeastTwoSteps(e: int, d: int)
    requires e >= 2 && d > 0
    ensures e * d >= 2 * d
  {
    assert (e - 2) * d >= 0;
  }

  // ---------------------------------------------------------------- inputs

  /** One history row of the period. Quantity and price in thousandths;
      `vendedor` is an optional column. */
  datatype SaleRow = SaleRow(fecha: string, hora: string, codigo: string, nombre: string,
                             cantidad: int, precio: int, vendedor: Option<string>)

  /** An inventory row's `Costo` cell: no such column (read as 0), an
      amount in thousandths, or text `float` cannot read (a blank cell). */
  datatype CostCell = NoColumn | Cost(amount: int) | Unreadable
  {
    /** What the cost table holds; an unreadable cell never gets there,
        because building the table raises. */
    function Value(): int {
      if Cost? then amount else 0
    }
  }

  /** One inventory row's code and its cost cell. */
  datatype CostEntry = CostEntry(codigo: string, costo: CostCell)

  /** Row `k` is the last inventory row holding `code`. */
  predicate LastWith(inv: seq<CostEntry>, code: string, k: int) {
    0 <= k < |inv| && inv[k].codigo == code && forall j :: k < j < |inv| ==> inv[j].codigo != code
  }

  /** The cost table is a dictionary built in inventory order, so the last
      row with a code wins; a missing cost column reads 0, and a code with
      no row costs 0. */
  function CostOf(inv: seq<CostEntry>, code: string): (c: int)
    ensures (forall j :: 0 <= j < |inv| ==> inv[j].codigo != code) ==> c == 0
    ensures forall k :: LastWith(inv, code, k) ==> c == inv[k].costo.Value()
  {
    if |inv| == 0 then 0
    else
      var n := |inv| - 1;
      if inv[n].codigo == code then
        assert forall k :: LastWith(inv, code, k) ==> k == n;
        inv[n].costo.Value()
      else
        var front := inv[..n];
        assert forall k :: LastWith(inv, code, k) ==> LastWith(front, code, k) && front[k] == inv[k];
        CostOf(front, code)
  }

  // --------------------------------------------------------------- details

  /** A sale with its computed amounts, all in thousandths. `codigo` is not
      among the fields of a `ventas_detalle` entry; it is kept only to group
      the details by product. */
  datatype Detail = Detail(fecha: string, hora: string, producto: string, codigo: string,
                           cantidad: int, precioVenta: int, costoUnitario: int,
                           ingreso: int, costo: int, utilidad: int, vendedor: string)

  /** A product of two amounts in thousandths, quantized half-up back to
      thousandths. */
  function Thousandths(a: int, b: int): (q: int)
    ensures 2 * Abs(a * b - q * 1000) <= 1000
    ensures 2 * Abs(a * b - q * 1000) == 1000 ==> Abs(q * 1000) > Abs(a * b)
  {
    RoundHalfUp(a * b, 1000)
  }

  /** An amount in thousandths quantized half-up to hundredths, still
      written in thousandths. */
  function ToCents(x: int): (c: int)
    ensures c % 10 == 0 && 2 * Abs(x - c) <= 10
    ensures 2 * Abs(x - c) == 10 ==> Abs(c) > Abs(x)
  {
    var u := RoundHalfUp(x, 10);
    assert (u * 10) % 10 == 0;
    u * 10
  }

  /** Revenue and cost are rounded half-up to thousandths; profit is their
      difference rounded half-up to hundredths. */
  function DetailOf(row: SaleRow, inv: seq<CostEntry>): (d: Detail)
    ensures d.codigo == row.codigo && d.cantidad == row.cantidad && d.precioVenta == row.precio
    ensures d.fecha == row.fecha && d.hora == row.hora && d.producto == row.nombre
    ensures d.costoUnitario == CostOf(inv, row.codigo)
    ensures d.vendedor == (if row.vendedor.Some? then row.vendedor.value else "Sistema")
    ensures 2 * Abs(row.precio * row.cantidad - d.ingreso * 1000) <= 1000
    ensures 2 * Abs(row.precio * row.cantidad - d.ingreso * 1000) == 1000 ==>
              Abs(d.ingreso * 1000) > Abs(row.precio * row.cantidad)
    ensures 2 * Abs(d.costoUnitario * row.cantidad - d.costo * 1000) <= 1000
    ensures 2 * Abs(d.costoUnitario * row.cantidad - d.costo * 1000) == 1000 ==>
              Abs(d.costo * 1000) > Abs(d.costoUnitario * row.cantidad)
    ensures d.utilidad % 10 == 0 && 2 * Abs(d.ingreso - d.costo - d.utilidad) <= 10
    ensures 2 * Abs(d.ingreso - d.costo - d.utilidad) == 10 ==> Abs(d.utilidad) > Abs(d.ingreso - d.costo)
  {
    var cost := CostOf(inv, row.codigo);
    var ingreso := Thousandths(row.precio, row.cantidad);
    var costo := Thousandths(cost, row.cantidad);
    Detail(row.fecha, row.hora, row.nombre, row.codigo, row.cantidad, row.precio, cost,
           ingreso, costo, ToCents(ingreso - costo), row.vendedor.GetOr("Sistema"))
  }

  function Details(rows: seq<SaleRow>, inv: seq<CostEntry>): (ds: seq<Detail>)
    ensures |ds| == |rows| && forall i :: 0 <= i < |rows| ==> ds[i] == DetailOf(rows[i], inv)
  {
    seq(|rows|, i requires 0 <= i < |rows| => DetailOf(rows[i], inv))
  }

  // ----------------------------------------------------------------- sums

  /** Running sums of a group of details: how many, units, revenue, cost, profit. */
  datatype Sums = Sums(count: nat, cantidad: int, ingresos: int, costos: int, utilidad: int)
  {
    function Plus(o: Sums): Sums {
      Sums(count + o.count, cantidad + o.cantidad, ingresos + o.ingresos, costos + o.costos,
           utilidad + o.utilidad)
    }
  }

  const NoSums := Sums(0, 0, 0, 0, 0)

  function SumsOf(d: Detail): Sums {
    Sums(1, d.cantidad, d.ingreso, d.costo, d.utilidad)
  }

  /** The sums over every detail. */
  function Total(ds: seq<Detail>): (s: Sums)
    ensures s.count == |ds|
  {
    if |ds| == 0 then NoSums else Total(ds[..|ds| - 1]).Plus(SumsOf(ds[|ds| - 1]))
  }

  /** The sums over the details whose key is `k`. */
  function TotalWhere(ds: seq<Detail>, key: Detail -> string, k: string): (s: Sums)
    ensures s.count == 0 ==> s == NoSums
  {
    if |ds| == 0 then NoSums
    else if key(ds[|ds| - 1]) == k then TotalWhere(ds[..|ds| - 1], key, k).Plus(SumsOf(ds[|ds| - 1]))
    else TotalWhere(ds[..|ds| - 1], key, k)
  }

  /** A key has sums exactly when some detail has that key. */
  lemma {:induction false} TotalWhereCount(ds: seq<Detail>, key: Detail -> string, k: string)
    ensures TotalWhere(ds, key, k).count > 0 <==> exists i :: 0 <= i < |ds| && key(ds[i]) == k
  {
    if |ds| > 0 {
      var front := ds[..|ds| - 1];
      TotalWhereCount(front, key, k);
      assert forall i :: 0 <= i < |front| ==> front[i] == ds[i];
      if key(ds[|ds| - 1]) != k {
        if exists i :: 0 <= i < |ds| && key(ds[i]) == k {
          var i :| 0 <= i < |ds| && key(ds[i]) == k;
          assert key(front[i]) == k;
        }
      }
    }
  }

  // -------------------------------------------------------------- grouping

  /** One group of a dictionary keyed by product code or seller: its key,
      the first detail that created it, and its running sums. */
  datatype Bucket = Bucket(key: string, first: Detail, sums: Sums)

  predicate UniqueKeys(bs: seq<Bucket>) {
    forall i, j :: 0 <= i < j < |bs| ==> bs[i].key != bs[j].key
  }

  function FindBucket(bs: seq<Bucket>, k: string): (r: Option<nat>)
    ensures r.Some? ==> r.value < |bs| && bs[r.value].key == k
    ensures r.None? ==> forall j :: 0 <= j < |bs| ==> bs[j].key != k
  {
    FirstIndex(bs, (b: Bucket) => b.key == k)
  }

  /** Adding a detail to the dictionary: a new key opens a bucket at the
      end; a known key adds to its bucket in place. */
  function AddDetail(bs: seq<Bucket>, d: Detail, key: Detail -> string): (r: seq<Bucket>)
    requires UniqueKeys(bs)
    ensures UniqueKeys(r)
    ensures FindBucket(bs, key(d)).None? ==> r == bs + [Bucket(key(d), d, SumsOf(d))]
    ensures FindBucket(bs, key(d)).Some? ==>
              var k := FindBucket(bs, key(d)).value;
              r == bs[k := bs[k].(sums := bs[k].sums.Plus(SumsOf(d)))]
  {
    match FindBucket(bs, key(d))
    case None => bs + [Bucket(key(d), d, SumsOf(d))]
    case Some(k) => bs[k := bs[k].(sums := bs[k].sums.Plus(SumsOf(d)))]
  }

  /** The dictionary after every detail, in first-appearance order. */
  function Group(ds: seq<Detail>, key: Detail -> string): (r: seq<Bucket>)
    ensures UniqueKeys(r)
  {
    if |ds| == 0 then [] else AddDetail(Group(ds[..|ds| - 1], key), ds[|ds| - 1], key)
  }

  /** Every key of the details has exactly one bucket, holding the sums of
      exactly the details with that key; no bucket has a key no detail has. */
  lemma {:induction false} GroupSums(ds: seq<Detail>, key: Detail -> string, k: string)
    ensures FindBucket(Group(ds, key), k).Some? <==> TotalWhere(ds, key, k).count > 0
    ensures FindBucket(Group(ds, key), k).Some? ==>
              Group(ds, key)[FindBucket(Group(ds, key), k).value].sums == TotalWhere(ds, key, k)
  {
    if |ds| > 0 {
      var front := ds[..|ds| - 1];
      var d := ds[|ds| - 1];
      var bs := Group(front, key);
      var r := Group(ds, key);
      GroupSums(front, key, k);
      match FindBucket(bs, key(d))
      case None =>
        assert r == bs + [Bucket(key(d), d, SumsOf(d))];
        if key(d) == k {
          assert FindBucket(r, k) == Some(|bs|) by { FirstFound(r, k, |bs|); }
        } else {
          FindBucketKept(bs, r, k);
        }
      case Some(j) =>
        assert r == bs[j := bs[j].(sums := bs[j].sums.Plus(SumsOf(d)))];
        FindBucketKept(bs, r, k);
    }
  }

  /** In buckets with unique keys, a bucket with key `k` is the one found. */
  lemma FirstFound(bs: seq<Bucket>, k: string, i: nat)
    requires UniqueKeys(bs) && i < |bs| && bs[i].key == k
    ensures FindBucket(bs, k) == Some(i)
  {
  }

  /** Buckets with the same keys in the same places are searched alike. */
  lemma FindBucketKept(bs: seq<Bucket>, r: seq<Bucket>, k: string)
    requires UniqueKeys(bs) && UniqueKeys(r) && |bs| <= |r|
    requires forall i :: 0 <= i < |bs| ==> r[i].key == bs[i].key
    requires forall i :: |bs| <= i < |r| ==> r[i].key != k
    ensures FindBucket(r, k) == FindBucket(bs, k)
  {
    match FindBucket(bs, k)
    case None =>
    case Some(i) => FirstFound(r, k, i);
  }

  function BucketTotal(bs: seq<Bucket>): Sums {
    if |bs| == 0 then NoSums else BucketTotal(bs[..|bs| - 1]).Plus(bs[|bs| - 1].sums)
  }

  lemma {:induction false} BucketTotalUpdate(bs: seq<Bucket>, j: nat, s: Sums)
    requires j < |bs|
    ensures BucketTotal(bs[j := bs[j].(sums := bs[j].sums.Plus(s))]) == BucketTotal(bs).Plus(s)
    decreases |bs|
  {
    var r := bs[j := bs[j].(sums := bs[j].sums.Plus(s))];
    var n := |bs| - 1;
    assert BucketTotal(r) == BucketTotal(r[..n]).Plus(r[n].sums);
    if j < n {
      assert r[..n] == bs[..n][j := bs[j].(sums := bs[j].sums.Plus(s))];
      BucketTotalUpdate(bs[..n], j, s);
      assert r[n] == bs[n];
    } else {
      assert r[..n] == bs[..n];
      assert r[n].sums == bs[n].sums.Plus(s);
    }
  }

  /** The groups partition the details: their sums add up to the grand total. */
  lemma {:induction false} GroupsAddUp(ds: seq<Detail>, key: Detail -> string)
    ensures BucketTotal(Group(ds, key)) == Total(ds)
  {
    if |ds| > 0 {
      var front := ds[..|ds| - 1];
      var d := ds[|ds| - 1];
      var bs := Group(front, key);
      GroupsAddUp(front, key);
      match FindBucket(bs, key(d))
      case None =>
        assert (bs + [Bucket(key(d), d, SumsOf(d))])[..|bs|] == bs;
      case Some(j) =>
        BucketTotalUpdate(bs, j, SumsOf(d));
    }
  }

  // --------------------------------------------------------------- ranking

  predicate SortedDesc<T>(s: seq<T>, rank: T -> int) {
    forall i, j :: 0 <= i < j < |s| ==> rank(s[i]) >= rank(s[j])
  }

  /** Inserts `x` after every element ranked at least as high. */
  function Insert<T>(x: T, s: seq<T>, rank: T -> int): (r: seq<T>)
    ensures |r| == |s| + 1
  {
    if |s| == 0 then [x]
    else if rank(s[0]) >= rank(x) then [s[0]] + Insert(x, s[1..], rank)
    else [x] + s
  }

  lemma {:induction false} InsertPermutes<T>(x: T, s: seq<T>, rank: T -> int)
    ensures multiset(Insert(x, s, rank)) == multiset(s) + multiset{x}
  {
    if |s| > 0 {
      assert s == [s[0]] + s[1..];
      if rank(s[0]) >= rank(x) {
        InsertPermutes(x, s[1..], rank);
      }
    }
  }

  lemma {:induction false} InsertKeepsOrder<T>(x: T, s: seq<T>, rank: T -> int)
    requires SortedDesc(s, rank)
    ensures SortedDesc(Insert(x, s, rank), rank)
  {
    if |s| > 0 && rank(s[0]) >= rank(x) {
      var rest := Insert(x, s[1..], rank);
      InsertKeepsOrder(x, s[1..], rank);
      InsertPermutes(x, s[1..], rank);
      forall j | 0 <= j < |rest|
        ensures rank(s[0]) >= rank(rest[j])
      {
        assert rest[j] in multiset(rest);
        if rest[j] != x {
          assert rest[j] in multiset(s[1..]);
          var m :| 0 <= m < |s[1..]| && s[1..][m] == rest[j];
          assert s[m + 1] == rest[j];
        }
      }
    }
  }

  /** `sorted(…, reverse=True)` on an integer rank, by insertion: a
      permutation in non-increasing rank order. */
  function SortDesc<T>(s: seq<T>, rank: T -> int): (r: seq<T>)
    ensures multiset(r) == multiset(s)
    ensures SortedDesc(r, rank)
  {
    if |s| == 0 then []
    else
      var front := SortDesc(s[..|s| - 1], rank);
      InsertPermutes(s[|s| - 1], front, rank);
      InsertKeepsOrder(s[|s| - 1], front, rank);
      assert s == s[..|s| - 1] + [s[|s| - 1]];
      Insert(s[|s| - 1], front, rank)
  }

  /** The first ten, or all when there are fewer. */
  function TopTen<T>(s: seq<T>, rank: T -> int): (r: seq<T>)
    requires SortedDesc(s, rank)
    ensures |r| == (if |s| <= 10 then |s| else 10) && r == s[..|r|]
    ensures SortedDesc(r, rank)
    ensures multiset(r) <= multiset(s)
    ensures forall x, i :: x in multiset(s) - multiset(r) && 0 <= i < |r| ==> rank(x) <= rank(r[i])
  {
    var k := if |s| <= 10 then |s| else 10;
    PrefixIsTop(s, rank, k);
    s[..k]
  }

  /** The first `k` of a falling sequence are a sub-multiset of it, and
      everything left over ranks no higher than any of them. */
  lemma PrefixIsTop<T>(s: seq<T>, rank: T -> int, k: nat)
    requires SortedDesc(s, rank) && k <= |s|
    ensures multiset(s[..k]) <= multiset(s)
    ensures forall x, i :: x in multiset(s) - multiset(s[..k]) && 0 <= i < k ==> rank(x) <= rank(s[i])
  {
    var r := s[..k];
    assert s == r + s[k..];
    assert multiset(s) - multiset(r) == multiset(s[k..]);
    forall x, i | x in multiset(s) - multiset(r) && 0 <= i < k
      ensures rank(x) <= rank(s[i])
    {
      assert x in s[k..];
      var j :| 0 <= j < |s[k..]| && s[k..][j] == x;
      assert s[k + j] == x;
    }
  }

  // ---------------------------------------------------------------- report

  datatype ProductStat = ProductStat(producto: string, codigo: string, cantidad: int,
                                     ingresos: int, costos: int, utilidad: int)

  datatype SellerStat = SellerStat(vendedor: string, ventas: nat, ingresos: int, utilidad: int)

  function ProductKey(d: Detail): string { d.codigo }
  function ProductRank(p: ProductStat): int { p.utilidad }
  function SellerRank(v: SellerStat): int { v.ingresos }
  function SellerKey(d: Detail): string { d.vendedor }

  function ProductStats(bs: seq<Bucket>): (r: seq<ProductStat>)
    ensures |r| == |bs|
    ensures forall i :: 0 <= i < |bs| ==>
              r[i] == ProductStat(bs[i].first.producto, bs[i].key, bs[i].sums.cantidad,
                                  bs[i].sums.ingresos, bs[i].sums.costos, bs[i].sums.utilidad)
  {
    seq(|bs|, i requires 0 <= i < |bs| =>
      ProductStat(bs[i].first.producto, bs[i].key, bs[i].sums.cantidad,
                  bs[i].sums.ingresos, bs[i].sums.costos, bs[i].sums.utilidad))
  }

  function SellerStats(bs: seq<Bucket>): (r: seq<SellerStat>)
    ensures |r| == |bs|
    ensures forall i :: 0 <= i < |bs| ==>
              r[i] == SellerStat(bs[i].key, bs[i].sums.count, bs[i].sums.ingresos, bs[i].sums.utilidad)
  {
    seq(|bs|, i requires 0 <= i < |bs| =>
      SellerStat(bs[i].key, bs[i].sums.count, bs[i].sums.ingresos, bs[i].sums.utilidad))
  }

  /** The report's figures. Money in hundredths after display rounding,
      the margin in hundredths of a percent, units in thousandths. */
  datatype Report = Report(totalIngresos: int, totalCostos: int, utilidadNeta: int,
                           margenTotal: int, totalVentas: nat, totalUnidades: int,
                           ticketPromedio: int, productos: seq<ProductStat>,
                           vendedores: seq<SellerStat>, detalle: seq<Detail>)

  const BadPeriod := "Período no válido"

  /** The periods the report accepts; a custom period needs both bounds. */
  predicate ValidPeriod(period: string, start: Option<string>, end: Option<string>) {
    period == "today" || period == "week" || period == "month"
    || (period == "custom" && start.Some? && start.value != "" && end.Some? && end.value != "")
  }

  /** The net profit (thousandths) and the margin (thousandths of a percent,
      rounded half-up; 0 without revenue) before display rounding. */
  function Margin(ingresos: int, neta: int): (m: int)
    ensures ingresos <= 0 ==> m == 0
    ensures ingresos > 0 ==> 2 * Abs(neta * 100_000 - m * ingresos) <= ingresos
    ensures ingresos > 0 && 2 * Abs(neta * 100_000 - m * ingresos) == ingresos ==>
              Abs(m * ingresos) > Abs(neta * 100_000)
  {
    if ingresos > 0 then RoundHalfUp(neta * 100_000, ingresos) else 0
  }

  /** An amount in thousandths shown in hundredths, rounded half-even. */
  function Hundredths(x: int): (h: int)
    ensures 2 * Abs(x - h * 10) <= 10
    ensures 2 * Abs(x - h * 10) == 10 ==> h % 2 == 0
  {
    RoundHalfEven(x, 10)
  }

  /** The average ticket in hundredths, rounded half-even; 0 without sales. */
  function Ticket(ingresos: int, n: nat): (t: int)
    ensures n == 0 ==> t == 0
    ensures n > 0 ==> 2 * Abs(ingresos - t * (10 * n)) <= 10 * n
    ensures n > 0 && 2 * Abs(ingresos - t * (10 * n)) == 10 * n ==> t % 2 == 0
  {
    if n > 0 then RoundHalfEven(ingresos, 10 * n) else 0
  }

  /** The headline figures of `r` display the sums `t` of `n` sales: units
      and the sale count as they are, every money figure (revenue, cost, net
      profit, average ticket) the nearest hundredth of the exact thousandths
      with a tie going to the even hundredth, the margin the displayed
      hundredths of the margin in thousandths, and no margin without revenue. */
  predicate Displays(r: Report, t: Sums, n: nat) {
    && r.totalVentas == n && r.totalUnidades == t.cantidad
    && NearestEven(t.ingresos, 10, r.totalIngresos)
    && NearestEven(t.costos, 10, r.totalCostos)
    && NearestEven(t.ingresos - t.costos, 10, r.utilidadNeta)
    && (t.ingresos <= 0 ==> r.margenTotal == 0)
    && (t.ingresos > 0 ==> r.margenTotal == Hundredths(Margin(t.ingresos, t.ingresos - t.costos)))
    && (n == 0 ==> r.ticketPromedio == 0)
    && (n > 0 ==> NearestEven(t.ingresos, 10 * n, r.ticketPromedio))
  }

  /** `q` is `x / d` rounded to the nearest integer, a tie going to the even one. */
  predicate NearestEven(x: int, d: int, q: int) {
    2 * Abs(x - q * d) <= d && (2 * Abs(x - q * d) == d ==> q % 2 == 0)
  }

  /** The report from the period's sums `t` over `n` sales and its two tables. */
  function Assemble(t: Sums, n: nat, productos: seq<ProductStat>, vendedores: seq<SellerStat>,
                    ds: seq<Detail>): (r: Report)
    ensures Displays(r, t, n)
    ensures r.productos == productos && r.vendedores == vendedores && r.detalle == ds
  {
    var neta := t.ingresos - t.costos;
    Report(Hundredths(t.ingresos), Hundredths(t.costos), Hundredths(neta),
           Hundredths(Margin(t.ingresos, neta)), n, t.cantidad, Ticket(t.ingresos, n),
           productos, vendedores, ds)
  }

  /** `productos_list[:10]`: the product lines ranked by falling profit, at
      most ten of them, and none left out that ranks above one kept. */
  function ProductTable(ds: seq<Detail>): (r: seq<ProductStat>)
    ensures SortedDesc(r, ProductRank)
    ensures var all := ProductStats(Group(ds, ProductKey));
      && |r| == (if |all| <= 10 then |all| else 10)
      && multiset(r) <= multiset(all)
      && forall x, i :: x in multiset(all) - multiset(r) && 0 <= i < |r| ==> ProductRank(x) <= ProductRank(r[i])
  {
    var all := ProductStats(Group(ds, ProductKey));
    var ranked := SortDesc(all, ProductRank);
    var top := TopTen(ranked, ProductRank);
    assert multiset(all) - multiset(top) == multiset(ranked) - multiset(top);
    top
  }

  /** `vendedores_list`: every seller line, ranked by falling revenue. */
  function SellerTable(ds: seq<Detail>): (r: seq<SellerStat>)
    ensures SortedDesc(r, SellerRank)
    ensures multiset(r) == multiset(SellerStats(Group(ds, SellerKey)))
  {
    SortDesc(SellerStats(Group(ds, SellerKey)), SellerRank)
  }

  /** The report over the period's details: the figures display their
      total, at most ten products by falling profit, and every seller by
      falling revenue. */
  function Summarize(ds: seq<Detail>): (r: Report)
    ensures Displays(r, Total(ds), |ds|) && r.detalle == ds
    ensures |r.productos| <= 10 && SortedDesc(r.productos, ProductRank)
    ensures SortedDesc(r.vendedores, SellerRank)
    ensures multiset(r.vendedores) == multiset(SellerStats(Group(ds, SellerKey)))
    ensures var all := ProductStats(Group(ds, ProductKey));
      && |r.productos| == (if |all| <= 10 then |all| else 10)
      && multiset(r.productos) <= multiset(all)
      && forall x, i :: x in multiset(all) - multiset(r.productos) && 0 <= i < |r.productos| ==>
           ProductRank(x) <= ProductRank(r.productos[i])
  {
    Assemble(Total(ds), |ds|, ProductTable(ds), SellerTable(ds), ds)
  }

  /** A history row as read from the sheet: `Cantidad` and `PrecioUnitario`
      are None when `Decimal` cannot read the cell (a blank one). */
  datatype SaleCells = SaleCells(fecha: string, hora: string, codigo: string, nombre: string,
                                 cantidad: Option<int>, precio: Option<int>, vendedor: Option<string>)

  predicate Readable(c: SaleCells) {
    c.cantidad.Some? && c.precio.Some?
  }

  predicate AllReadable(rows: seq<SaleCells>) {
    forall i :: 0 <= i < |rows| ==> Readable(rows[i])
  }

  /** The sales of a sheet whose cells all read. */
  function Sales(rows: seq<SaleCells>): (r: seq<SaleRow>)
    requires AllReadable(rows)
    ensures |r| == |rows| && forall i :: 0 <= i < |rows| ==> r[i] == RowOf(rows[i])
  {
    seq(|rows|, i requires 0 <= i < |rows| => RowOf(rows[i]))
  }

  function RowOf(c: SaleCells): SaleRow
    requires Readable(c)
  {
    SaleRow(c.fecha, c.hora, c.codigo, c.nombre, c.cantidad.value, c.precio.value, c.vendedor)
  }

  /** Why no report: the refusal the function returns ("Período no válido"),
      or an exception the catch-all turns into a failure (its text is not
      modelled). */
  datatype Refusal = Refused(error: string) | Raised

  /** `get_profit_analysis` over the rows already in the period. The cost
      table is built first, so an unreadable cost anywhere raises; then an
      unknown period, or a custom one without both bounds, is refused; then
      an unreadable quantity or price in a sale of the period raises. */
  function Analyze(period: string, start: Option<string>, end: Option<string>,
                   rows: seq<SaleCells>, inv: seq<CostEntry>): (r: Result<Report, Refusal>)
    ensures r.Failure? <==>
              (exists k :: 0 <= k < |inv| && inv[k].costo.Unreadable?)
              || !ValidPeriod(period, start, end)
              || (exists i :: 0 <= i < |rows| && !Readable(rows[i]))
    ensures (exists k :: 0 <= k < |inv| && inv[k].costo.Unreadable?) ==> r == Failure(Raised)
    ensures (forall k :: 0 <= k < |inv| ==> !inv[k].costo.Unreadable?) && !ValidPeriod(period, start, end) ==>
              r == Failure(Refused(BadPeriod))
    ensures ((forall k :: 0 <= k < |inv| ==> !inv[k].costo.Unreadable?) && ValidPeriod(period, start, end)
             && !AllReadable(rows)) ==> r == Failure(Raised)
    ensures r.Success? ==> AllReadable(rows) && r.value == Summarize(Details(Sales(rows), inv))
    ensures r.Success? ==> r.value.totalVentas == |rows|
  {
    if exists k :: 0 <= k < |inv| && inv[k].costo.Unreadable? then Failure(Raised)
    else if !ValidPeriod(period, start, end) then Failure(Refused(BadPeriod))
    else if !AllReadable(rows) then Failure(Raised)
    else
      var report := Summarize(Details(Sales(rows), inv));
      assert report.totalVentas == |rows|;
      Success(report)
  }

  /** Every seller with a sale in the period has a line in the report's
      seller table, holding the count, revenue and profit of exactly that
      seller's sales. */
  lemma SellerLineInReport(rows: seq<SaleRow>, inv: seq<CostEntry>, seller: string)
    requires exists i :: 0 <= i < |rows| && rows[i].vendedor.GetOr("Sistema") == seller
    ensures var ds := Details(rows, inv);
            var t := TotalWhere(ds, SellerKey, seller);
      SellerStat(seller, t.count, t.ingresos, t.utilidad) in Summarize(ds).vendedores
  {
    var ds := Details(rows, inv);
    var i :| 0 <= i < |rows| && rows[i].vendedor.GetOr("Sistema") == seller;
    assert SellerKey(ds[i]) == seller;
    TotalWhereCount(ds, SellerKey, seller);
    GroupSums(ds, SellerKey, seller);
    var bs := Group(ds, SellerKey);
    var k := FindBucket(bs, seller).value;
    var stats := SellerStats(bs);
    assert stats[k] in multiset(stats);
  }

  /** A product of the report's table is a product line of the period: its
      figures are exactly the sums of that code's sales. */
  lemma ProductInReportSumsItsSales(rows: seq<SaleRow>, inv: seq<CostEntry>, p: ProductStat)
    requires p in Summarize(Details(rows, inv)).productos
    ensures var t := TotalWhere(Details(rows, inv), ProductKey, p.codigo);
      t.count > 0 && p.cantidad == t.cantidad && p.ingresos == t.ingresos
      && p.costos == t.costos && p.utilidad == t.utilidad
  {
    var ds := Details(rows, inv);
    var r := Summarize(ds);
    assert p in multiset(r.productos);
    ProductLineOfGroup(ds, p);
  }

  /** A line of the product table before ranking sums its code's sales. */
  lemma ProductLineOfGroup(ds: seq<Detail>, p: ProductStat)
    requires p in ProductStats(Group(ds, ProductKey))
    ensures var t := TotalWhere(ds, ProductKey, p.codigo);
      t.count > 0 && p.cantidad == t.cantidad && p.ingresos == t.ingresos
      && p.costos == t.costos && p.utilidad == t.utilidad
  {
    var bs := Group(ds, ProductKey);
    var all := ProductStats(bs);
    var k :| 0 <= k < |all| && all[k] == p;
    assert FindBucket(bs, p.codigo) == Some(k) by { FirstFound(bs, p.codigo, k); }
    GroupSums(ds, ProductKey, p.codigo);
  }

  /** The seller table counts every sale exactly once and splits the revenue
      without loss. */
  lemma SellersCoverEverySale(rows: seq<SaleRow>, inv: seq<CostEntry>)
    ensures var bs := Group(Details(rows, inv), SellerKey);
      BucketTotal(bs).count == |rows| && BucketTotal(bs).ingresos == Total(Details(rows, inv)).ingresos
  {
    GroupsAddUp(Details(rows, inv), SellerKey);
  }

  /** A report the analysis returns lists the seller of every sheet row of
      the period, with exactly the sums of that seller's sales. */
  lemma AnalyzeReportsEverySeller(period: string, start: Option<string>, end: Option<string>,
                                  rows: seq<SaleCells>, inv: seq<CostEntry>, i: nat)
    requires Analyze(period, start, end, rows, inv).Success? && i < |rows|
    ensures var seller := rows[i].vendedor.GetOr("Sistema");
            var t := TotalWhere(Details(Sales(rows), inv), SellerKey, seller);
      SellerStat(seller, t.count, t.ingresos, t.utilidad) in Analyze(period, start, end, rows, inv).value.vendedores
  {
    var sales := Sales(rows);
    assert sales[i].vendedor == rows[i].vendedor;
    SellerLineInReport(sales, inv, rows[i].vendedor.GetOr("Sistema"));
  }

  /** Each product's line of the report sums exactly the sales of that code. */
  lemma ProductLineSumsItsSales(rows: seq<SaleRow>, inv: seq<CostEntry>, code: string)
    requires exists i :: 0 <= i < |rows| && rows[i].codigo == code
    ensures var bs := Group(Details(rows, inv), ProductKey);
      FindBucket(bs, code).Some?
      && bs[FindBucket(bs, code).value].sums == TotalWhere(Details(rows, inv), ProductKey, code)
  {
    var ds := Details(rows, inv);
    var i :| 0 <= i < |rows| && rows[i].codigo == code;
    assert ProductKey(ds[i]) == code;
    TotalWhereCount(ds, ProductKey, code);
    GroupSums(ds, ProductKey, code);
  }

  /** The displayed net profit is the rounded difference, not the difference
      of the rounded figures: revenue 0.015 and cost 0.005 show 0.02 and 0.00
      but a net profit of 0.01. */
  lemma DisplayedNetIsNotDisplayedDifference()
    ensures RoundHalfEven(15, 10) == 2 && RoundHalfEven(5, 10) == 0 && RoundHalfEven(15 - 5, 10) == 1
  {
    RoundHalfEvenUnique(15, 10, 2);
    RoundHalfEvenUnique(5, 10, 0);
    RoundHalfEvenUnique(10, 10, 1);
  }
}

=== FILE: seqs.dfy ===
/** Order-preserving filtering, used for the cart, the inventory views and the
    sales history. */
module Seqs {
  import opened Wrappers

  /** Position of the first element satisfying `f` (`Array.prototype.find`,
      `findIndex`); `None` when there is none. */
  function FirstIndex<T>(xs: seq<T>, f: T -> bool): (r: Option<nat>)
    ensures r.Some? ==> r.value < |xs| && f(xs[r.value])
    ensures r.Some? ==> forall j :: 0 <= j < r.value ==> !f(xs[j])
    ensures r.None? ==> forall j :: 0 <= j < |xs| ==> !f(xs[j])
  {
    if |xs| == 0 then None
    else if f(xs[0]) then Some(0)
    else match FirstIndex(xs[1..], f)
      case None => None
      case Some(k) => Some(k + 1)
  }

  /** The elements of `xs` that satisfy `keep`, in their original order
      (JavaScript's `Array.prototype.filter`, a Python list comprehension). */
  function Filter<T>(xs: seq<T>, keep: T -> bool): (r: seq<T>)
    ensures |r| <= |xs|
    ensures forall i :: 0 <= i < |r| ==> r[i] in xs && keep(r[i])
    ensures forall i :: 0 <= i < |xs| && keep(xs[i]) ==> xs[i] in r
    ensures multiset(r) <= multiset(xs)
  {
    if |xs| == 0 then []
    else
      assert multiset(xs) == multiset([xs[0]]) + multiset(xs[1..]) by { assert xs == [xs[0]] + xs[1..]; }
      if keep(xs[0]) then [xs[0]] + Filter(xs[1..], keep)
      else Filter(xs[1..], keep)
  }

  /** Filtering distributes over concatenation, so it never reorders what it keeps. */
  lemma {:induction false} FilterAppend<T>(a: seq<T>, b: seq<T>, keep: T -> bool)
    ensures Filter(a + b, keep) == Filter(a, keep) + Filter(b, keep)
  {
    if |a| == 0 {
      assert a + b == b;
    } else {
      assert (a + b)[1..] == a[1..] + b;
      FilterAppend(a[1..], b, keep);
    }
  }

  /** A one-element sequence is kept exactly when its element passes. With
      FilterAppend this pins the filter down: it is the sequence of passing
      elements, each as often as it occurs and in the original order. */
  lemma FilterOne<T>(x: T, keep: T -> bool)
    ensures Filter([x], keep) == if keep(x) then [x] else []
  {
    assert [x][1..] == [];
  }

  /** Filtering keeps everything exactly when every element passes. */
  lemma {:induction false} FilterKeepsAll<T>(xs: seq<T>, keep: T -> bool)
    requires forall i :: 0 <= i < |xs| ==> keep(xs[i])
    ensures Filter(xs, keep) == xs
  {
    if |xs| > 0 {
      FilterKeepsAll(xs[1..], keep);
    }
  }

  /** Filtering with a predicate nothing satisfies yields the empty sequence. */
  lemma {:induction false} FilterDropsAll<T>(xs: seq<T>, keep: T -> bool)
    requires forall i :: 0 <= i < |xs| ==> !keep(xs[i])
    ensures Filter(xs, keep) == []
  {
    if |xs| > 0 {
      FilterDropsAll(xs[1..], keep);
    }
  }
}

=== FILE: sri_client.dfy ===
/** The SRI web-service client: how a reception answer is classified, and the
    bounded authorization polling loop. SOAP transport and sleeping are
    outside the model; each call's answer is an input. */
module SriClient {
  import opened Wrappers

  /** A `mensaje` element of an answer; any attribute may be missing. */
  datatype Message = Message(identificador: Option<string>, mensaje: Option<string>,
                             tipo: Option<string>, informacionAdicional: Option<string>)

  /** A message as the client reports it: missing attributes read as "".
      Authorization messages carry no `informacion_adicional` (None). */
  datatype Detail = Detail(identificador: string, mensaje: string, tipo: string,
                           informacionAdicional: Option<string>)

  // ------------------------------------------------------------- reception

  /** One returned voucher; `mensajes` is None when it has no such attribute. */
  datatype Voucher = Voucher(mensajes: Option<seq<Message>>)

  /** What `validarComprobante` did: raised (with the exception text), or
      answered. `comprobantes` is None when the answer has no non-empty
      `comprobantes.comprobante`; Some([]) is a present but empty list. */
  datatype ReceptionReply =
    | ReceptionRaised(detail: string)
    | ReceptionAnswer(estado: Option<string>, comprobantes: Option<seq<Voucher>>)

  datatype ReceptionResult = ReceptionResult(success: bool, estado: string, mensaje: string,
                                             errores: Option<seq<Detail>>)

  const SendErrorPrefix := "Error al enviar comprobante: "
  const IndexErrorText := "list index out of range"

  function ReceptionDetail(m: Message): Detail {
    Detail(m.identificador.GetOr(""), m.mensaje.GetOr(""), m.tipo.GetOr(""),
           Some(m.informacionAdicional.GetOr("")))
  }

  function Details(ms: seq<Message>, full: bool): (ds: seq<Detail>)
    ensures |ds| == |ms|
    ensures forall i :: 0 <= i < |ms| ==> ds[i].mensaje == ms[i].mensaje.GetOr("")
    ensures forall i :: 0 <= i < |ms| ==> ds[i].identificador == ms[i].identificador.GetOr("")
    ensures forall i :: 0 <= i < |ms| ==> ds[i].tipo == ms[i].tipo.GetOr("")
    ensures forall i :: 0 <= i < |ms| ==>
              ds[i].informacionAdicional == if full then Some(ms[i].informacionAdicional.GetOr("")) else None
  {
    seq(|ms|, i requires 0 <= i < |ms| =>
      if full then ReceptionDetail(ms[i])
      else Detail(ms[i].identificador.GetOr(""), ms[i].mensaje.GetOr(""), ms[i].tipo.GetOr(""), None))
  }

  /** The messages of the first returned voucher, when there is a voucher
      and it has messages. */
  function FirstMessages(cs: Option<seq<Voucher>>): Option<seq<Message>> {
    if cs.Some? && |cs.value| > 0 then cs.value[0].mensajes else None
  }

  /** `enviar_comprobante`'s classification of the reception answer. */
  function ClassifyReception(reply: ReceptionReply): (r: ReceptionResult)
    ensures r.success <==> reply.ReceptionAnswer? && reply.estado == Some("RECIBIDA")
    ensures reply.ReceptionRaised? ==>
              r == ReceptionResult(false, "ERROR", SendErrorPrefix + reply.detail, None)
    ensures reply.ReceptionAnswer? && reply.estado.None? ==> r.estado == "ERROR"
    ensures r.errores.Some? ==>
              reply.ReceptionAnswer? && r.estado == "DEVUELTA" && reply.comprobantes.Some?
              && |reply.comprobantes.value| > 0 && reply.comprobantes.value[0].mensajes.Some?
              && r.errores.value == Details(reply.comprobantes.value[0].mensajes.value, true)
              && r.mensaje == (if |r.errores.value| > 0 then r.errores.value[0].mensaje
                               else "Error desconocido")
    ensures reply.ReceptionAnswer? && reply.estado != Some("DEVUELTA") ==>
              r == ReceptionResult(reply.estado == Some("RECIBIDA"), reply.estado.GetOr("ERROR"), "", None)
    ensures reply.ReceptionAnswer? && reply.estado == Some("DEVUELTA") && reply.comprobantes == Some([]) ==>
              r == ReceptionResult(false, "ERROR", SendErrorPrefix + IndexErrorText, None)
    ensures reply.ReceptionAnswer? && reply.estado == Some("DEVUELTA") && FirstMessages(reply.comprobantes).Some? ==>
              var ms := FirstMessages(reply.comprobantes).value;
              r == ReceptionResult(false, "DEVUELTA",
                                   if |ms| > 0 then ms[0].mensaje.GetOr("") else "Error desconocido",
                                   Some(Details(ms, true)))
    ensures reply.ReceptionAnswer? && reply.estado == Some("DEVUELTA") && reply.comprobantes != Some([])
            && FirstMessages(reply.comprobantes).None? ==>
              r == ReceptionResult(false, "DEVUELTA", "", None)
  {
    match reply
    case ReceptionRaised(detail) => ReceptionResult(false, "ERROR", SendErrorPrefix + detail, None)
    case ReceptionAnswer(e, cs) =>
      var estado := e.GetOr("ERROR");
      var base := ReceptionResult(estado == "RECIBIDA", estado, "", None);
      if estado == "DEVUELTA" && cs.Some? then
        if |cs.value| == 0 then ReceptionResult(false, "ERROR", SendErrorPrefix + IndexErrorText, None)
        else match cs.value[0].mensajes
          case None => base
          case Some(ms) =>
            var errores := Details(ms, true);
            base.(errores := Some(errores),
                  mensaje := if |errores| > 0 then errores[0].mensaje else "Error desconocido")
      else base
  }

  /** A reported error read back as a message, every attribute present. */
  function MessageOf(d: Detail): Message {
    Message(Some(d.identificador), Some(d.mensaje), Some(d.tipo), d.informacionAdicional)
  }

  /** A message that carries all four attributes. */
  predicate Complete(m: Message) {
    m.identificador.Some? && m.mensaje.Some? && m.tipo.Some? && m.informacionAdicional.Some?
  }

  /** When the first voucher's messages carry every attribute, the errors a
      DEVUELTA answer reports give those messages back, one for one and in
      order, and the reported mensaje is the first of them. */
  lemma DevueltaReportsTheVoucherMessages(reply: ReceptionReply)
    requires reply.ReceptionAnswer? && reply.estado == Some("DEVUELTA")
    requires FirstMessages(reply.comprobantes).Some?
    requires forall i :: 0 <= i < |FirstMessages(reply.comprobantes).value| ==>
               Complete(FirstMessages(reply.comprobantes).value[i])
    ensures var ms := FirstMessages(reply.comprobantes).value;
            var r := ClassifyReception(reply);
      && !r.success && r.errores.Some?
      && |r.errores.value| == |ms|
      && (forall i :: 0 <= i < |ms| ==> MessageOf(r.errores.value[i]) == ms[i])
      && (|ms| > 0 ==> Some(r.mensaje) == ms[0].mensaje)
  {
  }

  // ---------------------------------------------------------- authorization

  datatype Authorization = Authorization(estado: Option<string>, numeroAutorizacion: string,
                                         fechaAutorizacion: string, ambiente: string,
                                         comprobante: string, mensajes: Option<seq<Message>>)

  /** What one `autorizacionComprobante` call did: raised, answered with no
      authorizations, or answered with a first authorization. */
  datatype PollReply = PollRaised(detail: string) | NoAuthorizations | Answered(auth: Authorization)

  datatype AuthResult =
    | Authorized(claveAcceso: string, numeroAutorizacion: string, fechaAutorizacion: string,
                 ambiente: string, comprobanteXml: string, advertencias: Option<seq<Detail>>)
    | NotAuthorized(estado: string, claveAcceso: string, errores: seq<Detail>, mensaje: string)
    | PollError(mensaje: string)
    | Timeout
  {
    predicate Success() { Authorized? }
  }

  const QueryErrorPrefix := "Error consultando autorización: "

  function EstadoOf(a: Authorization): string {
    a.estado.GetOr("ERROR")
  }

  predicate IsRejection(estado: string) {
    estado == "NO AUTORIZADO" || estado == "RECHAZADO"
  }

  /** Whether the answer to attempt `i` of `max` ends the loop. */
  predicate Decisive(reply: PollReply, i: int, max: int) {
    match reply
    case PollRaised(_) => i == max - 1
    case NoAuthorizations => false
    case Answered(a) => EstadoOf(a) == "AUTORIZADO" || IsRejection(EstadoOf(a))
  }

  /** The result a decisive answer returns. */
  function Outcome(reply: PollReply, clave: string): (r: AuthResult)
    requires !reply.NoAuthorizations?
    ensures reply.PollRaised? ==> r == PollError(QueryErrorPrefix + reply.detail)
    ensures reply.Answered? && EstadoOf(reply.auth) == "AUTORIZADO" ==>
              r.Authorized? && r.numeroAutorizacion == reply.auth.numeroAutorizacion
              && r.fechaAutorizacion == reply.auth.fechaAutorizacion && r.ambiente == reply.auth.ambiente
              && r.claveAcceso == clave && r.comprobanteXml == reply.auth.comprobante
              && (r.advertencias.Some? <==> reply.auth.mensajes.Some?)
              && (reply.auth.mensajes.Some? ==> r.advertencias.value == Details(reply.auth.mensajes.value, false))
    ensures reply.Answered? && EstadoOf(reply.auth) != "AUTORIZADO" ==>
              r.NotAuthorized? && r.estado == EstadoOf(reply.auth) && r.claveAcceso == clave
              && r.errores == Details(reply.auth.mensajes.GetOr([]), false)
              && r.mensaje == (if |r.errores| > 0 then r.errores[0].mensaje else "Comprobante no autorizado")
  {
    match reply
    case PollRaised(d) => PollError(QueryErrorPrefix + d)
    case Answered(a) =>
      var notes := match a.mensajes case None => [] case Some(ms) => Details(ms, false);
      if EstadoOf(a) == "AUTORIZADO" then
        Authorized(clave, a.numeroAutorizacion, a.fechaAutorizacion, a.ambiente, a.comprobante,
                   if a.mensajes.Some? then Some(notes) else None)
      else
        NotAuthorized(EstadoOf(a), clave, notes,
                      if |notes| > 0 then notes[0].mensaje else "Comprobante no autorizado")
  }

  /** The loop's result, how many queries it made and how many times it slept. */
  datatype Polling = Polling(result: AuthResult, queries: nat, sleeps: nat)

  /** `consultar_autorizacion` from attempt `i` on, `replies[i]` being the
      answer to attempt `i`. */
  function PollFrom(replies: seq<PollReply>, clave: string, max: int, i: nat, sleeps: nat): (p: Polling)
    requires max <= |replies|
    requires i <= max
    requires sleeps == if i == 0 then 0 else i - 1
    ensures i <= p.queries <= max
    ensures p.sleeps == if p.queries == 0 then 0 else p.queries - 1
    ensures forall j :: i <= j < p.queries - 1 ==> !Decisive(replies[j], j, max)
    ensures p.result.Timeout? ==>
              p.queries == max && (forall j :: i <= j < max ==> !Decisive(replies[j], j, max))
    ensures !p.result.Timeout? ==>
              i < p.queries && Decisive(replies[p.queries - 1], p.queries - 1, max)
              && p.result == Outcome(replies[p.queries - 1], clave)
    decreases max - i
  {
    if i == max then Polling(Timeout, i, sleeps)
    else
      var slept := if i > 0 then sleeps + 1 else sleeps;
      var reply := replies[i];
      if Decisive(reply, i, max) then Polling(Outcome(reply, clave), i + 1, slept)
      else PollFrom(replies, clave, max, i + 1, slept)
  }

  /** `consultar_autorizacion(clave, intentos_maximos)`: at most `max` queries,
      a sleep before every query but the first; AUTORIZADO, NO AUTORIZADO and
      RECHAZADO end the loop at once, an exception only on the last attempt,
      and running out of attempts is TIMEOUT. */
  function Poll(replies: seq<PollReply>, clave: string, max: int): (p: Polling)
    requires max <= |replies|
    ensures max <= 0 ==> p == Polling(Timeout, 0, 0)
    ensures p.queries <= if max <= 0 then 0 else max
    ensures p.sleeps == if p.queries == 0 then 0 else p.queries - 1
    ensures forall j :: 0 <= j < p.queries - 1 ==> !Decisive(replies[j], j, max)
    ensures p.result.Timeout? <==> forall j :: 0 <= j < max ==> !Decisive(replies[j], j, max)
    ensures p.result.Timeout? && max > 0 ==> p.queries == max
    ensures !p.result.Timeout? ==>
              0 < p.queries && Decisive(replies[p.queries - 1], p.queries - 1, max)
              && p.result == Outcome(replies[p.queries - 1], clave)
    ensures p.result.Authorized? ==>
              replies[p.queries - 1].Answered? && EstadoOf(replies[p.queries - 1].auth) == "AUTORIZADO"
    ensures p.result.NotAuthorized? ==>
              replies[p.queries - 1].Answered? && IsRejection(EstadoOf(replies[p.queries - 1].auth))
    ensures p.result.PollError? ==> p.queries == max && replies[max - 1].PollRaised?
  {
    if max <= 0 then Polling(Timeout, 0, 0) else PollFrom(replies, clave, max, 0, 0)
  }

  /** The first decisive answer decides: whatever follows it is never asked. */
  lemma {:induction false} LaterRepliesIgnored(replies: seq<PollReply>, other: seq<PollReply>,
                                               clave: string, max: int, k: nat)
    requires max <= |replies| && |other| == |replies|
    requires k < max && Decisive(replies[k], k, max)
    requires forall j :: 0 <= j <= k ==> other[j] == replies[j]
    ensures Poll(other, clave, max) == Poll(replies, clave, max)
  {
    SamePrefix(replies, other, clave, max, k, 0, 0);
  }

  lemma {:induction false} SamePrefix(replies: seq<PollReply>, other: seq<PollReply>,
                                      clave: string, max: int, k: nat, i: nat, sleeps: nat)
    requires max <= |replies| && |other| == |replies|
    requires i <= k < max && Decisive(replies[k], k, max)
    requires forall j :: 0 <= j <= k ==> other[j] == replies[j]
    requires sleeps == if i == 0 then 0 else i - 1
    ensures PollFrom(other, clave, max, i, sleeps) == PollFrom(replies, clave, max, i, sleeps)
    decreases k - i
  {
    if i < k && !Decisive(replies[i], i, max) {
      SamePrefix(replies, other, clave, max, k, i + 1, if i > 0 then sleeps + 1 else sleeps);
    }
  }
}

=== FILE: stock.dfy ===
/** The backend's inventory sheet rules: one stock update, a whole sale over
    a list of items, and the sales-history query. The spreadsheet is a
    sequence of rows; quantities and prices are integers in thousandths
    (the sheet keeps three decimals). */
module Stock {
  import opened Wrappers
  import opened Text
  import opened Seqs

  /** How `float()` fares on a numeric cell: the cell reads, it is blank
      (the sheet gives None for an empty cell), or it holds text that is not
      a number. */
  datatype Reading = Reads | Blank | NotANumber(text: string)

  /** One inventory row. `unidad` is the unit of sale ("unidad" for
      whole-unit products), None when its cell is blank; quantities and
      prices are in thousandths. `cantidadRead` is how the quantity cell
      reads, and `restRead` how the first of the price 1, price 2 and
      minimum-stock cells that does not read fares (`Reads` when all do).
      A number is meaningful only when its cell reads. */
  datatype StockRow = StockRow(id: string, codigo: string, nombre: string, cantidad: int,
                               unidad: Option<string>, precio1: int, precio2: int, minStock: int,
                               cantidadRead: Reading, restRead: Reading)

  type Sheet = seq<StockRow>

  const Scale := 1000
  const WholeUnitsError := "Este producto solo se puede vender en unidades enteras"
  const ShortStockError := "Stock insuficiente"
  /** What `str(e)` reads when the code is in no row: the search yields no
      cell and reading its row fails. */
  const NotFoundError := "'NoneType' object has no attribute 'row'"

  /** What `str(e)` reads when the unit cell is blank and `.lower()` is
      called on None. */
  const BlankUnitError := "'NoneType' object has no attribute 'lower'"

  /** What `str(e)` reads when `float()` gets None, a blank cell. */
  const BlankNumberError := "float() argument must be a string or a real number, not 'NoneType'"

  /** What `str(e)` reads when `float()` rejects a cell's text. */
  function FloatError(cell: string): string {
    "could not convert string to float: '" + cell + "'"
  }

  /** What `str(e)` reads when `float()` fails on a cell that does not read. */
  function ReadingError(c: Reading): string
    requires !c.Reads?
  {
    if c.Blank? then BlankNumberError else FloatError(c.text)
  }

  /** The error raised while reading a row, in the order the update reads
      its cells: the quantity, then the unit, then the prices and the
      minimum. None exactly when every cell reads. */
  function ReadError(row: StockRow): (r: Option<string>)
    ensures r.None? <==> row.cantidadRead.Reads? && row.unidad.Some? && row.restRead.Reads?
    ensures !row.cantidadRead.Reads? ==> r == Some(ReadingError(row.cantidadRead))
    ensures row.cantidadRead.Reads? && row.unidad.None? ==> r == Some(BlankUnitError)
    ensures row.cantidadRead.Reads? && row.unidad.Some? && !row.restRead.Reads? ==>
              r == Some(ReadingError(row.restRead))
  {
    if !row.cantidadRead.Reads? then Some(ReadingError(row.cantidadRead))
    else if row.unidad.None? then Some(BlankUnitError)
    else if !row.restRead.Reads? then Some(ReadingError(row.restRead))
    else None
  }

  /** A whole-unit product asked for a fractional quantity. */
  predicate Fractional(row: StockRow, sold: int) {
    row.unidad.Some? && ToLower(row.unidad.value) == "unidad" && sold % Scale != 0
  }

  function FindRow(sheet: Sheet, code: string): (r: Option<nat>)
    ensures r.Some? ==> r.value < |sheet| && sheet[r.value].codigo == code
    ensures r.Some? ==> forall j :: 0 <= j < r.value ==> sheet[j].codigo != code
    ensures r.None? ==> forall j :: 0 <= j < |sheet| ==> sheet[j].codigo != code
  {
    FirstIndex(sheet, (row: StockRow) => row.codigo == code)
  }

  /** What a successful update reports. `price` in thousandths, `sold` and
      `newQuantity` in thousandths of a unit. */
  datatype Update = Update(productId: string, code: string, name: string, price: int,
                           sold: int, newQuantity: int, alert: bool)

  datatype UpdateResult = Updated(sheet: Sheet, update: Update) | Rejected(error: string)

  /** The sheet with row `k`'s quantity replaced. */
  function SetQuantity(sheet: Sheet, k: nat, q: int): (r: Sheet)
    requires k < |sheet|
    ensures |r| == |sheet| && r[k] == sheet[k].(cantidad := q)
    ensures forall j :: 0 <= j < |sheet| && j != k ==> r[j] == sheet[j]
  {
    sheet[k := sheet[k].(cantidad := q)]
  }

  /** `update_stock(code, sold, price_type)`: the first row holding the code;
      a whole-unit product refuses a fractional quantity, then a quantity
      above the stock is refused; otherwise the stock drops by the quantity,
      the alert is raised when what remains is at or below the minimum, and
      the price is the second tier exactly for "precio_2". A cell that does
      not read fails the update with the error its read raises, before any
      check. A refusal writes nothing. */
  function UpdateStock(sheet: Sheet, code: string, sold: int, priceType: string): (r: UpdateResult)
    ensures FindRow(sheet, code).None? ==> r == Rejected(NotFoundError)
    ensures FindRow(sheet, code).Some? && ReadError(sheet[FindRow(sheet, code).value]).Some? ==>
              r == Rejected(ReadError(sheet[FindRow(sheet, code).value]).value)
    ensures FindRow(sheet, code).Some? && ReadError(sheet[FindRow(sheet, code).value]).None? ==>
              var row := sheet[FindRow(sheet, code).value];
              && (r == Rejected(WholeUnitsError) <==> Fractional(row, sold))
              && (r == Rejected(ShortStockError) <==> !Fractional(row, sold) && row.cantidad < sold)
    ensures r.Updated? ==>
              var k := FindRow(sheet, code).value;
              && ReadError(sheet[k]).None?
              && r.sheet == SetQuantity(sheet, k, sheet[k].cantidad - sold)
              && r.update.newQuantity == sheet[k].cantidad - sold
              && r.update.newQuantity >= 0
              && r.update.sold == sold && r.update.code == code
              && r.update.productId == sheet[k].id && r.update.name == sheet[k].nombre
              && (r.update.alert <==> r.update.newQuantity <= sheet[k].minStock)
              && r.update.price == (if priceType == "precio_2" then sheet[k].precio2 else sheet[k].precio1)
    ensures FindRow(sheet, code).Some? ==>
              var row := sheet[FindRow(sheet, code).value];
              (ReadError(row).None? && !Fractional(row, sold) && row.cantidad >= sold) ==> r.Updated?
  {
    match FindRow(sheet, code)
    case None => Rejected(NotFoundError)
    case Some(k) =>
      var row := sheet[k];
      if ReadError(row).Some? then Rejected(ReadError(row).value)
      else if Fractional(row, sold) then Rejected(WholeUnitsError)
      else if row.cantidad < sold then Rejected(ShortStockError)
      else
        var q := row.cantidad - sold;
        var price := if priceType == "precio_2" then row.precio2 else row.precio1;
        Updated(SetQuantity(sheet, k, q), Update(row.id, code, row.nombre, price, sold, q, q <= row.minStock))
  }

  /** A product whose unit cell is blank cannot be sold at all, whatever the
      quantity and the price tier, as long as its quantity cell reads. */
  lemma BlankUnitBlocksSale(sheet: Sheet, code: string, sold: int, priceType: string)
    requires FindRow(sheet, code).Some?
    requires sheet[FindRow(sheet, code).value].cantidadRead.Reads?
    requires sheet[FindRow(sheet, code).value].unidad.None?
    ensures UpdateStock(sheet, code, sold, priceType) == Rejected(BlankUnitError)
  {
  }

  /** Units on the sheet, summed over every row. */
  function Units(sheet: Sheet): int {
    if |sheet| == 0 then 0 else Units(sheet[..|sheet| - 1]) + sheet[|sheet| - 1].cantidad
  }

  lemma {:induction false} UnitsSetQuantity(sheet: Sheet, k: nat, q: int)
    requires k < |sheet|
    ensures Units(SetQuantity(sheet, k, q)) == Units(sheet) - sheet[k].cantidad + q
    decreases |sheet|
  {
    var r := SetQuantity(sheet, k, q);
    var n := |sheet| - 1;
    if k < n {
      assert r[..n] == SetQuantity(sheet[..n], k, q);
      UnitsSetQuantity(sheet[..n], k, q);
    } else {
      assert r[..n] == sheet[..n];
    }
  }

  /** An update takes exactly the sold quantity off the sheet's total. */
  lemma UpdateConservesUnits(sheet: Sheet, code: string, sold: int, priceType: string)
    requires UpdateStock(sheet, code, sold, priceType).Updated?
    ensures Units(UpdateStock(sheet, code, sold, priceType).sheet) == Units(sheet) - sold
  {
    var k := FindRow(sheet, code).value;
    UnitsSetQuantity(sheet, k, sheet[k].cantidad - sold);
  }

  /** Nothing rejects a negative quantity: "selling" one puts stock back. */
  lemma NegativeSaleRestocks(sheet: Sheet, code: string, sold: int, priceType: string)
    requires FindRow(sheet, code).Some? && sold < 0 && sold % Scale == 0
    requires ReadError(sheet[FindRow(sheet, code).value]).None?
    requires sheet[FindRow(sheet, code).value].cantidad >= 0
    ensures UpdateStock(sheet, code, sold, priceType).Updated?
    ensures UpdateStock(sheet, code, sold, priceType).update.newQuantity
              > sheet[FindRow(sheet, code).value].cantidad
  {
  }

  // ------------------------------------------------------------------ sale

  /** One cart item as the sale request carries it; `tipoPrecio` is an
      optional key that is nevertheless read unconditionally. */
  datatype SaleItem = SaleItem(codigo: string, cantidadVendida: int, tipoPrecio: Option<string>)

  /** Why the item loop stopped early: an update refused (with the reported
      message), or an item lacked `tipoPrecio` and the lookup raised. */
  datatype Stop = ItemFailed(error: string) | MissingPriceType

  /** The item loop: the sheet after it, the updates made, and why it
      stopped if it did. */
  datatype Run = Run(sheet: Sheet, updates: seq<Update>, stop: Option<Stop>)

  function SoldUnits(us: seq<Update>): int {
    if |us| == 0 then 0 else SoldUnits(us[..|us| - 1]) + us[|us| - 1].sold
  }

  /** Updates the items in order and stops at the first that fails. What
      was written before the failure stays written. */
  function RunItems(sheet: Sheet, items: seq<SaleItem>): (r: Run)
    ensures |r.updates| <= |items| && |r.sheet| == |sheet|
    ensures r.stop.None? <==> |r.updates| == |items|
    ensures forall i :: 0 <= i < |r.updates| ==>
              r.updates[i].code == items[i].codigo && r.updates[i].sold == items[i].cantidadVendida
    ensures r.stop.Some? && r.stop.value.ItemFailed? ==>
              items[|r.updates|].tipoPrecio.Some?
              && UpdateStock(r.sheet, items[|r.updates|].codigo, items[|r.updates|].cantidadVendida,
                             items[|r.updates|].tipoPrecio.value).Rejected?
              && r.stop.value.error == "Error en " + items[|r.updates|].codigo + ": "
                                       + UpdateStock(r.sheet, items[|r.updates|].codigo,
                                                     items[|r.updates|].cantidadVendida,
                                                     items[|r.updates|].tipoPrecio.value).error
    ensures r.stop == Some(MissingPriceType) ==> items[|r.updates|].tipoPrecio.None?
    decreases |items|
  {
    if |items| == 0 then Run(sheet, [], None)
    else
      var item := items[|items| - 1];
      var before := RunItems(sheet, items[..|items| - 1]);
      if before.stop.Some? then before
      else match item.tipoPrecio
        case None => Run(before.sheet, before.updates, Some(MissingPriceType))
        case Some(t) =>
          match UpdateStock(before.sheet, item.codigo, item.cantidadVendida, t)
          case Rejected(e) => Run(before.sheet, before.updates, Some(ItemFailed("Error en " + item.codigo + ": " + e)))
          case Updated(s, u) => Run(s, before.updates + [u], None)
  }

  /** The update attempted for item `i`: `update_stock` on the sheet the
      first `i` items left. */
  function StepResult(sheet: Sheet, items: seq<SaleItem>, i: nat): UpdateResult
    requires i < |items| && items[i].tipoPrecio.Some?
  {
    UpdateStock(RunItems(sheet, items[..i]).sheet, items[i].codigo, items[i].cantidadVendida,
                items[i].tipoPrecio.value)
  }

  /** Every update reported is exactly what `update_stock` returned for that
      item on the sheet the earlier items left, and the sheet after it is
      the one the run carries forward. */
  lemma {:induction false} RunItemsSteps(sheet: Sheet, items: seq<SaleItem>)
    ensures forall i :: 0 <= i < |RunItems(sheet, items).updates| ==>
              StepMade(sheet, items, RunItems(sheet, items).updates, i)
    decreases |items|
  {
    if |items| > 0 {
      var n := |items| - 1;
      var before := RunItems(sheet, items[..n]);
      var r := RunItems(sheet, items);
      RunItemsSteps(sheet, items[..n]);
      LastItem(sheet, items);
      forall i | 0 <= i < |r.updates|
        ensures StepMade(sheet, items, r.updates, i)
      {
        if i < |before.updates| {
          StepKept(sheet, items, n, before.updates, r.updates, i);
        } else {
          assert i == n;
        }
      }
    }
  }

  /** The last item adds at most one update to those of the items before
      it, and when it adds one that update is the step it made. */
  lemma LastItem(sheet: Sheet, items: seq<SaleItem>)
    requires |items| > 0
    ensures var before := RunItems(sheet, items[..|items| - 1]);
            var r := RunItems(sheet, items);
      && |before.updates| <= |r.updates| && r.updates[..|before.updates|] == before.updates
      && (|r.updates| > |before.updates| ==>
            |before.updates| == |items| - 1 && StepMade(sheet, items, r.updates, |items| - 1))
  {
    var n := |items| - 1;
    var item := items[n];
    var before := RunItems(sheet, items[..n]);
    var r := RunItems(sheet, items);
    if before.stop.None? && item.tipoPrecio.Some? {
      var res := StepResult(sheet, items, n);
      if res.Updated? {
        assert r == Run(res.sheet, before.updates + [res.update], None);
        assert items[..n + 1] == items;
        assert StepResult(sheet, items, n) == Updated(RunItems(sheet, items[..n + 1]).sheet, r.updates[n]);
      } else {
        assert r.updates == before.updates;
      }
    } else {
      assert r.updates == before.updates;
    }
  }

  /** A step made within the first `n` items is still made within all of them. */
  lemma StepKept(sheet: Sheet, items: seq<SaleItem>, n: nat, us: seq<Update>, vs: seq<Update>, i: nat)
    requires i < |us| <= n < |items| && |us| <= |vs| <= |items| && vs[..|us|] == us
    requires StepMade(sheet, items[..n], us, i)
    ensures StepMade(sheet, items, vs, i)
  {
    PrefixOfPrefix(items, n, i);
    PrefixOfPrefix(items, n, i + 1);
    assert vs[i] == us[i];
  }

  /** Update `i` of `us` is what item `i` produced, as stated above. */
  predicate StepMade(sheet: Sheet, items: seq<SaleItem>, us: seq<Update>, i: nat)
    requires i < |us| <= |items|
  {
    && items[i].tipoPrecio.Some?
    && RunItems(sheet, items[..i]).stop.None?
    && StepResult(sheet, items, i) == Updated(RunItems(sheet, items[..i + 1]).sheet, us[i])
  }

  lemma PrefixOfPrefix<T>(xs: seq<T>, n: nat, i: nat)
    requires i <= n <= |xs|
    ensures xs[..n][..i] == xs[..i]
  {
  }

  /** Units are conserved: the sheet loses exactly the quantities of the
      updates made, whether or not the loop ran to the end. */
  lemma {:induction false} RunItemsConservesUnits(sheet: Sheet, items: seq<SaleItem>)
    ensures var r := RunItems(sheet, items);
      Units(r.sheet) == Units(sheet) - SoldUnits(r.updates)
  {
    if |items| > 0 {
      var item := items[|items| - 1];
      var before := RunItems(sheet, items[..|items| - 1]);
      RunItemsConservesUnits(sheet, items[..|items| - 1]);
      if before.stop.None? && item.tipoPrecio.Some? {
        var t := item.tipoPrecio.value;
        var res := UpdateStock(before.sheet, item.codigo, item.cantidadVendida, t);
        if res.Updated? {
          UpdateConservesUnits(before.sheet, item.codigo, item.cantidadVendida, t);
          assert (before.updates + [res.update])[..|before.updates|] == before.updates;
        }
      }
    }
  }

  /** The low-stock notices of a sale: name and remaining quantity of every
      update that raised an alert, in order. */
  datatype Alert = Alert(producto: string, cantidadRestante: int)

  function AlertOf(u: Update): Alert {
    Alert(u.name, u.newQuantity)
  }

  function Alerts(us: seq<Update>): (r: seq<Alert>)
    ensures |r| <= |us|
    ensures forall a :: a in r ==> exists u :: u in us && u.alert && a == AlertOf(u)
    ensures forall u :: u in us && u.alert ==> AlertOf(u) in r
  {
    if |us| == 0 then []
    else
      var rest := Alerts(us[1..]);
      assert forall u :: u in us[1..] ==> u in us;
      assert forall u :: u in us ==> u == us[0] || u in us[1..];
      if us[0].alert then [AlertOf(us[0])] + rest else rest
  }

  /** The alerts of two runs of updates joined are the two alert lists
      joined; with AlertsOne this says the list holds one notice per alerting
      update, in the updates' order. */
  lemma {:induction false} AlertsAppend(a: seq<Update>, b: seq<Update>)
    ensures Alerts(a + b) == Alerts(a) + Alerts(b)
  {
    if |a| == 0 {
      assert a + b == b;
    } else {
      assert (a + b)[1..] == a[1..] + b;
      AlertsAppend(a[1..], b);
    }
  }

  lemma AlertsOne(u: Update)
    ensures Alerts([u]) == if u.alert then [AlertOf(u)] else []
  {
    assert [u][1..] == [];
  }

  /** The sale total in millionths: price (thousandths) times quantity
      (thousandths), summed over the updates. */
  function SaleTotal(us: seq<Update>): int {
    if |us| == 0 then 0 else SaleTotal(us[..|us| - 1]) + us[|us| - 1].price * us[|us| - 1].sold
  }

  datatype SaleOutcome =
    | Sold(sheet: Sheet, total: int, items: nat, updates: seq<Update>, alerts: seq<Alert>)
    | SaleError(sheet: Sheet, error: string)
    | SaleRaised(sheet: Sheet)

  const UnsavedPrefix := "Venta procesada pero no se guardó en historial: "

  /** `process_sale`: run the items, then save the history rows (whose
      failure `saveError` reports). Nothing written is ever undone. */
  function ProcessSale(sheet: Sheet, items: seq<SaleItem>, saveError: Option<string>): (r: SaleOutcome)
    ensures r.sheet == RunItems(sheet, items).sheet
    ensures r.Sold? <==> RunItems(sheet, items).stop.None? && saveError.None?
    ensures r.SaleRaised? <==> RunItems(sheet, items).stop == Some(MissingPriceType)
    ensures r.SaleError? && RunItems(sheet, items).stop.None? ==>
              r.error == UnsavedPrefix + saveError.value
    ensures r.Sold? ==>
              && r.items == |items| && |r.updates| == |items|
              && r.total == SaleTotal(r.updates)
              && r.alerts == Alerts(r.updates)
    ensures r.Sold? ==> Units(r.sheet) == Units(sheet) - SoldUnits(r.updates)
    ensures r.Sold? ==> r.updates == RunItems(sheet, items).updates
    ensures RunItems(sheet, items).stop.Some? && RunItems(sheet, items).stop.value.ItemFailed? ==>
              r == SaleError(RunItems(sheet, items).sheet, RunItems(sheet, items).stop.value.error)
  {
    RunItemsConservesUnits(sheet, items);
    var run := RunItems(sheet, items);
    match run.stop
    case Some(MissingPriceType) => SaleRaised(run.sheet)
    case Some(ItemFailed(e)) => SaleError(run.sheet, e)
    case None =>
      if saveError.Some? then SaleError(run.sheet, UnsavedPrefix + saveError.value)
      else Sold(run.sheet, SaleTotal(run.updates), |run.updates|, run.updates, Alerts(run.updates))
  }

  /** No rollback: when item `k` fails, the sheet is what the first `k`
      items alone would have left. */
  lemma {:induction false} FailureKeepsEarlierUpdates(sheet: Sheet, items: seq<SaleItem>)
    requires RunItems(sheet, items).stop.Some?
    ensures var k := |RunItems(sheet, items).updates|;
      RunItems(sheet, items[..k]).stop.None?
      && RunItems(sheet, items).sheet == RunItems(sheet, items[..k]).sheet
    decreases |items|
  {
    var n := |items| - 1;
    var before := RunItems(sheet, items[..n]);
    if before.stop.Some? {
      FailureKeepsEarlierUpdates(sheet, items[..n]);
      var k := |before.updates|;
      assert items[..n][..k] == items[..k];
    } else {
      assert items[..n] == items[..|RunItems(sheet, items).updates|];
    }
  }

  // --------------------------------------------------------------- history

  /** A history row; only the date matters to the query. */
  datatype SaleRecord = SaleRecord(fecha: string, codigo: string, cantidad: int)

  /** An optional date bound; a blank one is no bound. */
  predicate Active(bound: Option<string>) {
    bound.Some? && bound.value != ""
  }

  predicate InRange(r: SaleRecord, from: Option<string>, to: Option<string>) {
    (Active(from) ==> StrLe(from.value, r.fecha)) && (Active(to) ==> StrLe(r.fecha, to.value))
  }

  /** The slice `records[-limit:]` for a non-zero limit: always a suffix. */
  function LastN(records: seq<SaleRecord>, limit: int): (r: seq<SaleRecord>)
    requires limit != 0
    ensures |r| <= |records| && r == records[|records| - |r|..]
    ensures limit > 0 ==> |r| == (if limit < |records| then limit else |records|)
    ensures limit < 0 ==> |r| == (if -limit <= |records| then |records| + limit else 0)
  {
    if limit > 0 then
      if limit < |records| then records[|records| - limit..] else records
    else if -limit <= |records| then records[-limit..] else []
  }

  function AfterFrom(from: string): SaleRecord -> bool {
    (x: SaleRecord) => StrLe(from, x.fecha)
  }

  function BeforeTo(to: string): SaleRecord -> bool {
    (x: SaleRecord) => StrLe(x.fecha, to)
  }

  function Within(from: Option<string>, to: Option<string>): SaleRecord -> bool {
    (x: SaleRecord) => InRange(x, from, to)
  }

  /** The two date filters, each applied only when its bound is given. */
  function DateFilter(records: seq<SaleRecord>, from: Option<string>, to: Option<string>): seq<SaleRecord> {
    var f1 := if Active(from) then Filter(records, AfterFrom(from.value)) else records;
    if Active(to) then Filter(f1, BeforeTo(to.value)) else f1
  }

  /** Filtering by one bound and then by the other selects exactly the
      records within both. */
  lemma DateFilterIsSelection(records: seq<SaleRecord>, from: Option<string>, to: Option<string>)
    ensures DateFilter(records, from, to) == Filter(records, Within(from, to))
  {
    if Active(from) && Active(to) {
      FilterTwice(records, AfterFrom(from.value), BeforeTo(to.value), Within(from, to));
    } else if Active(from) {
      FilterSame(records, AfterFrom(from.value), Within(from, to));
    } else if Active(to) {
      FilterSame(records, BeforeTo(to.value), Within(from, to));
    } else {
      FilterKeepsAll(records, Within(from, to));
    }
  }

  /** `get_sales_history(limit, date_from, date_to)`: the records whose date
      lies within the active bounds (compared as strings), in order; then a
      non-zero limit keeps the slice `[-limit:]` — the last `limit` records,
      or for a negative limit all but the first `-limit`. */
  function History(records: seq<SaleRecord>, limit: Option<int>, from: Option<string>,
                   to: Option<string>): (r: seq<SaleRecord>)
    ensures |r| <= |records|
    ensures forall i :: 0 <= i < |r| ==> r[i] in records && InRange(r[i], from, to)
    ensures (limit.None? || limit.value == 0) ==>
              forall i :: 0 <= i < |records| && InRange(records[i], from, to) ==> records[i] in r
    ensures limit.Some? && limit.value > 0 ==> |r| <= limit.value
    ensures r == if limit.None? || limit.value == 0 then Filter(records, Within(from, to))
                 else LastN(Filter(records, Within(from, to)), limit.value)
  {
    DateFilterIsSelection(records, from, to);
    var f := DateFilter(records, from, to);
    DateFilterSelects(records, from, to);
    if limit.None? || limit.value == 0 then f
    else
      var r := LastN(f, limit.value);
      SuffixKeeps(f, r, records, from, to);
      r
  }

  lemma SuffixKeeps(f: seq<SaleRecord>, r: seq<SaleRecord>, records: seq<SaleRecord>,
                    from: Option<string>, to: Option<string>)
    requires |r| <= |f| && r == f[|f| - |r|..]
    requires forall i :: 0 <= i < |f| ==> f[i] in records && InRange(f[i], from, to)
    ensures forall i :: 0 <= i < |r| ==> r[i] in records && InRange(r[i], from, to)
  {
    forall i | 0 <= i < |r| ensures r[i] in records && InRange(r[i], from, to) {
      assert r[i] == f[|f| - |r| + i];
    }
  }

  /** What the date filters keep: records of the sheet, each within the
      active bounds, and every such record. */
  lemma DateFilterSelects(records: seq<SaleRecord>, from: Option<string>, to: Option<string>)
    ensures var f := DateFilter(records, from, to);
      && |f| <= |records|
      && (forall i :: 0 <= i < |f| ==> f[i] in records && InRange(f[i], from, to))
      && (forall i :: 0 <= i < |records| && InRange(records[i], from, to) ==> records[i] in f)
  {
    DateFilterIsSelection(records, from, to);
    var f := DateFilter(records, from, to);
    forall i | 0 <= i < |f| ensures f[i] in records && InRange(f[i], from, to) {
      assert Within(from, to)(f[i]);
    }
    forall i | 0 <= i < |records| && InRange(records[i], from, to) ensures records[i] in f {
      assert Within(from, to)(records[i]);
    }
  }

  lemma {:induction false} FilterSame<T>(xs: seq<T>, p: T -> bool, q: T -> bool)
    requires forall x :: p(x) == q(x)
    ensures Filter(xs, p) == Filter(xs, q)
  {
    if |xs| > 0 {
      FilterSame(xs[1..], p, q);
    }
  }

  lemma {:induction false} FilterTwice<T>(xs: seq<T>, p: T -> bool, q: T -> bool, both: T -> bool)
    requires forall x :: both(x) == (p(x) && q(x))
    ensures Filter(Filter(xs, p), q) == Filter(xs, both)
  {
    if |xs| > 0 {
      FilterTwice(xs[1..], p, q, both);
    }
  }

  /** Bounds that cross select nothing. */
  lemma CrossedBoundsSelectNothing(records: seq<SaleRecord>, limit: Option<int>, from: string, to: string)
    requires from != "" && to != "" && !StrLe(from, to)
    ensures History(records, limit, Some(from), Some(to)) == []
  {
    var r := History(records, limit, Some(from), Some(to));
    if |r| > 0 {
      StrLeTransitive(from, r[0].fecha, to);
    }
  }
}

=== FILE: text.dfy ===
/** Character and string helpers shared by the front end (JavaScript) and the
    back end (Python): decimal rendering, `zfill`, case mapping, `trim`,
    substring search and lexicographic comparison. */
module Text {

  // ---------------------------------------------------------------- digits

  predicate IsDigit(c: char) {
    '0' <= c <= '9'
  }

  predicate AllDigits(s: string) {
    forall i :: 0 <= i < |s| ==> IsDigit(s[i])
  }

  function DigitValue(c: char): (d: nat)
    requires IsDigit(c)
    ensures d <= 9
  {
    (c as int) - ('0' as int)
  }

  function DigitChar(d: nat): (c: char)
    requires d <= 9
    ensures IsDigit(c) && DigitValue(c) == d
  {
    (('0' as int) + d) as char
  }

  function Pow10(k: nat): (p: nat)
    ensures p >= 1
  {
    if k == 0 then 1 else 10 * Pow10(k - 1)
  }

  /** The number a string of decimal digits denotes (leading zeros allowed). */
  function DigitsValue(s: string): nat
    requires AllDigits(s)
  {
    if |s| == 0 then 0 else 10 * DigitsValue(s[..|s| - 1]) + DigitValue(s[|s| - 1])
  }

  /** Python's `str(n)` for a non-negative integer. */
  function NatToString(n: nat): (r: string)
    ensures 1 <= |r|
    ensures AllDigits(r)
    ensures r[0] == '0' ==> r == "0"
  {
    if n < 10 then [DigitChar(n)] else NatToString(n / 10) + [DigitChar(n % 10)]
  }

  /** Python's `str(i)` for any integer: a minus sign, then the digits. */
  function IntToString(i: int): (r: string)
    ensures 0 <= i ==> r == NatToString(i)
    ensures i < 0 ==> r == "-" + NatToString(-i)
  {
    if i < 0 then "-" + NatToString(-i) else NatToString(i)
  }

  /** Rendering then reading back gives the number again. */
  lemma {:induction false} NatToStringRoundTrip(n: nat)
    ensures DigitsValue(NatToString(n)) == n
  {
    if n >= 10 {
      NatToStringRoundTrip(n / 10);
      var s := NatToString(n);
      assert s[..|s| - 1] == NatToString(n / 10);
    }
  }

  /** `str(n)` has at most `k` characters exactly when `n < 10^k`. */
  lemma {:induction false} NatToStringLength(n: nat, k: nat)
    requires 1 <= k
    ensures |NatToString(n)| <= k <==> n < Pow10(k)
  {
    if n >= 10 {
      if k == 1 {
        assert |NatToString(n)| >= 2 by {
          assert |NatToString(n)| == |NatToString(n / 10)| + 1;
        }
      } else {
        NatToStringLength(n / 10, k - 1);
        assert n < Pow10(k) <==> n / 10 < Pow10(k - 1);
      }
    }
  }

  /** Python's `str.zfill(width)`: pad with '0' on the left up to `width`,
      after a leading sign if there is one; never truncates. */
  function ZFill(s: string, width: int): (r: string)
    ensures |r| == if |s| >= width then |s| else width
    ensures |s| >= width ==> r == s
    ensures |s| < width && (|s| == 0 || (s[0] != '+' && s[0] != '-')) ==>
              r[width - |s|..] == s && forall i :: 0 <= i < width - |s| ==> r[i] == '0'
    ensures |s| < width && |s| > 0 && (s[0] == '+' || s[0] == '-') ==>
              r[0] == s[0] && r[width - |s| + 1..] == s[1..] &&
              forall i :: 1 <= i <= width - |s| ==> r[i] == '0'
  {
    if |s| >= width then s
    else if |s| > 0 && (s[0] == '+' || s[0] == '-') then [s[0]] + Zeros(width - |s|) + s[1..]
    else Zeros(width - |s|) + s
  }

  function Zeros(n: nat): (r: string)
    ensures |r| == n && forall i :: 0 <= i < n ==> r[i] == '0'
  {
    if n == 0 then "" else "0" + Zeros(n - 1)
  }

  /** Leading zeros do not change the number a digit string denotes, so
      `zfill` of a rendered number still reads back as that number. */
  lemma {:induction false} ZFillKeepsValue(n: nat, width: int)
    ensures AllDigits(ZFill(NatToString(n), width))
    ensures DigitsValue(ZFill(NatToString(n), width)) == n
  {
    var s := NatToString(n);
    NatToStringRoundTrip(n);
    if |s| < width {
      LeadingZeros(Zeros(width - |s|), s);
    }
  }

  lemma {:induction false} LeadingZeros(z: string, s: string)
    requires forall i :: 0 <= i < |z| ==> z[i] == '0'
    requires AllDigits(s)
    ensures AllDigits(z + s) && DigitsValue(z + s) == DigitsValue(s)
  {
    if |s| == 0 {
      assert z + s == z;
      AllZeros(z);
    } else {
      var t := s[..|s| - 1];
      assert (z + s)[..|z + s| - 1] == z + t;
      LeadingZeros(z, t);
    }
  }

  lemma {:induction false} AllZeros(z: string)
    requires forall i :: 0 <= i < |z| ==> z[i] == '0'
    ensures AllDigits(z) && DigitsValue(z) == 0
  {
    if |z| > 0 {
      AllZeros(z[..|z| - 1]);
    }
  }

  // ------------------------------------------------------------ case mapping

  /** Lower-case mapping of one character, for the ASCII and Latin-1 letters
      (JavaScript's `toLowerCase` and Python's `str.lower` agree there). */
  function LowerChar(c: char): (r: char)
    ensures 'A' <= c <= 'Z' ==> r as int == c as int + 32
    ensures 'a' <= r <= 'z' ==> ('a' <= c <= 'z' || 'A' <= c <= 'Z')
  {
    if 'A' <= c <= 'Z' then (c as int + 32) as char
    else if 0xC0 <= c as int <= 0xDE && c as int != 0xD7 then (c as int + 32) as char
    else c
  }

  function ToLower(s: string): (r: string)
    ensures |r| == |s|
    ensures forall i :: 0 <= i < |s| ==> r[i] == LowerChar(s[i])
  {
    seq(|s|, i requires 0 <= i < |s| => LowerChar(s[i]))
  }

  /** Lower-casing twice is lower-casing once. */
  lemma ToLowerIdempotent(s: string)
    ensures ToLower(ToLower(s)) == ToLower(s)
  {
  }

  // ----------------------------------------------------------------- trim

  /** The characters JavaScript's `String.prototype.trim` removes: the
      WhiteSpace and LineTerminator code points of ECMA-262. */
  predicate IsJsSpace(c: char) {
    var n := c as int;
    (0x09 <= n <= 0x0D) || n == 0x20 || n == 0xA0 || n == 0x1680 ||
    (0x2000 <= n <= 0x200A) || n == 0x2028 || n == 0x2029 || n == 0x202F ||
    n == 0x205F || n == 0x3000 || n == 0xFEFF
  }

  function TrimStart(s: string): (r: string)
    ensures |r| <= |s| && r == s[|s| - |r|..]
    ensures |r| > 0 ==> !IsJsSpace(r[0])
    ensures forall i :: 0 <= i < |s| - |r| ==> IsJsSpace(s[i])
  {
    if |s| > 0 && IsJsSpace(s[0]) then
      var t := TrimStart(s[1..]);
      assert t == s[|s| - |t|..] by { assert s[1..][|s| - 1 - |t|..] == s[|s| - |t|..]; }
      assert forall i :: 1 <= i < |s| - |t| ==> s[i] == s[1..][i - 1];
      t
    else s
  }

  function TrimEnd(s: string): (r: string)
    ensures |r| <= |s| && r == s[..|r|]
    ensures |r| > 0 ==> !IsJsSpace(r[|r| - 1])
    ensures forall i :: |r| <= i < |s| ==> IsJsSpace(s[i])
  {
    if |s| > 0 && IsJsSpace(s[|s| - 1]) then TrimEnd(s[..|s| - 1]) else s
  }

  /** JavaScript's `s.trim()`. */
  function Trim(s: string): string {
    TrimEnd(TrimStart(s))
  }

  /** `s.trim() === ''` holds exactly when every character is white space. */
  lemma TrimEmptyIffAllSpace(s: string)
    ensures Trim(s) == "" <==> forall i :: 0 <= i < |s| ==> IsJsSpace(s[i])
  {
    var t := TrimStart(s);
    if Trim(s) == "" {
      assert |t| == 0;
    } else {
      var r := Trim(s);
      assert !IsJsSpace(r[0]);
      assert r[0] == s[|s| - |t|];
    }
  }

  // ------------------------------------------------------------ substrings

  predicate OccursAt(hay: string, needle: string, i: int) {
    0 <= i && i + |needle| <= |hay| && hay[i..i + |needle|] == needle
  }

  /** JavaScript's `hay.includes(needle)` and Python's `needle in hay`. */
  function Includes(hay: string, needle: string): (r: bool)
    ensures r <==> exists i :: OccursAt(hay, needle, i)
  {
    if |needle| > |hay| then false
    else if hay[..|needle|] == needle then
      assert OccursAt(hay, needle, 0);
      true
    else
      IncludesShift(hay, needle);
      Includes(hay[1..], needle)
  }

  /** When the needle is not at the front, it occurs in `hay` exactly when it
      occurs in `hay` without its first character. */
  lemma IncludesShift(hay: string, needle: string)
    requires |needle| <= |hay| && hay[..|needle|] != needle
    ensures (exists i :: OccursAt(hay, needle, i)) <==> (exists i :: OccursAt(hay[1..], needle, i))
  {
    if exists i :: OccursAt(hay, needle, i) {
      var i :| OccursAt(hay, needle, i);
      assert i != 0;
      assert hay[1..][i - 1..i - 1 + |needle|] == hay[i..i + |needle|];
      assert OccursAt(hay[1..], needle, i - 1);
    }
    if exists i :: OccursAt(hay[1..], needle, i) {
      var i :| OccursAt(hay[1..], needle, i);
      assert hay[i + 1..i + 1 + |needle|] == hay[1..][i..i + |needle|];
      assert OccursAt(hay, needle, i + 1);
    }
  }

  // --------------------------------------------------------- string order

  /** Python's `a <= b` on strings: lexicographic by code point. */
  predicate StrLe(a: string, b: string) {
    if |a| == 0 then true
    else if |b| == 0 then false
    else if a[0] != b[0] then a[0] < b[0]
    else StrLe(a[1..], b[1..])
  }

  lemma {:induction false} StrLeTotal(a: string, b: string)
    ensures StrLe(a, b) || StrLe(b, a)
  {
    if |a| > 0 && |b| > 0 && a[0] == b[0] {
      StrLeTotal(a[1..], b[1..]);
    }
  }

  lemma {:induction false} StrLeTransitive(a: string, b: string, c: string)
    requires StrLe(a, b) && StrLe(b, c)
    ensures StrLe(a, c)
  {
    if |a| > 0 && |b| > 0 && |c| > 0 && a[0] == b[0] && b[0] == c[0] {
      StrLeTransitive(a[1..], b[1..], c[1..]);
    }
  }
}

=== FILE: wrappers.dfy ===
/** Failure-carrying values shared by every module of the model. */
module Wrappers {

  /** A value that may be absent: a missing dictionary key, an attribute the
      response object does not have, or an input that did not parse. */
  datatype Option<+T> = None | Some(value: T) {

    /** The value, or `default` when absent (Python's `dict.get(k, default)`). */
    function GetOr(default: T): (r: T)
      ensures Some? ==> r == value
      ensures None? ==> r == default
    {
      match this
      case Some(v) => v
      case None => default
    }
  }

  /** The outcome of an operation that reports its errors as a value. */
  datatype Result<+R, +E> = Success(value: R) | Failure(error: E)
}
